=== FILE: README.md ===
# AI resume formatter: a Dafny model of its core

The application lets a user upload a resume. A language model (OpenAI or
Gemini) parses the text into a structured `ResumeData` record. The user can
then edit the record in a form, ask the model to improve its wording or to
restyle the preview, and export it as a DOCX document.

This project models the logic around the model calls and states its
properties:

- **Provider choice and error wrapping** (`Service`): the provider is picked
  from the build-time environment. A missing key fails first, with its own
  message; every failure after a provider is chosen becomes one
  provider-specific message.
- **JSON extraction** (`Braces`): the greedy `/\{[\s\S]*\}/` match that
  pulls the JSON object out of a model reply.
- **Normalisation** (`Normalize`, `Ids`): parsed JSON becomes a
  `ResumeData`, with defaults and numbered ids such as `exp-1`.
- **Improve post-processing** (`Improve`): every experience description is
  made into an array.
- **Screen state** (`App`): the handlers of the top-level screen as a state
  machine. Each asynchronous handler is split at its `await`.
- **Form editing** (`Form`, `ParseInt`): the edit, add and remove operations
  of the resume form, including `parseInt(value) || 0` for years of
  experience.
- **DOCX export** (`Docx`): which paragraphs and sections the exporter emits,
  and in what order.

The SDK call and `JSON.parse` are parameters:

- `Service.Sdk` maps a request to the reply text or an error message.
- `Service.JsonParser` maps text to a `Json` value or an error.

Nothing in the model performs I/O. A handler's awaited result is also a
parameter (its outcome). The handlers are pure transitions on `App.State`.

Files:

- `wrappers.dfy`: `Option`, `Result`.
- `text.dfy`: whitespace, decimal rendering, `join`.
- `types.dfy`: the records of `types.ts` and the six list sections.
- `json.dfy`: parsed JSON and JavaScript truthiness and `||`.
- `faults.dfy`: the errors raised inside a service call.
- `braces.dfy`, `ids.dfy`, `normalize.dfy`, `improve.dfy`, `service.dfy`:
  `services/geminiService.ts`.
- `parseint.dfy`, `form.dfy`: `components/ResumeForm.tsx`.
- `docx.dfy`, `app.dfy`: `App.tsx`.

Several features one might expect are absent from the code, and the model
follows the code on each point:

- no provider registry, persistence of the choice, or Ollama backend:
  components/AIProviderSettings.tsx:2 imports `getAvailableProviders` and
  `setCurrentProvider`, but services/geminiService.ts exports only
  `parseResumeText`, `improveResumeContent` and `generateStyles`
  (services/geminiService.ts:27, 182, 250);
- no retries: each service function makes one SDK call inside one `try`;
- no loss-guard: services/geminiService.ts:243 returns whatever the model
  sent back, even when its lists are empty;
- no merge of generated styles: services/geminiService.ts:298 returns the
  parsed styles as they are.

In the code, a restyle replaces the styles wholesale, and an improvement
replaces the resume with whatever the model returned.

## Model

| member | source | states |
|---|---|---|
| Text.NatToString | services/geminiService.ts:25 | The decimal rendering of a number is non-empty, all digits, one digit exactly below ten, and has no leading zero unless the number is zero |
| Text.DigitsValueOfNatToString | services/geminiService.ts:25 | Reading the rendered digits back gives the number: rendering is a left inverse of decimal reading |
| Text.NatToStringInjective | services/geminiService.ts:25 | Distinct numbers render as distinct strings |
| Ids.GenerateId | services/geminiService.ts:25 | An id starts with its prefix and a dash and is longer than both |
| Ids.GenerateIdInjective | services/geminiService.ts:25 | Two ids are equal only when prefix and index both agree, so `prefix-(index+1)` is a unique numbering |
| Ids.PrefixOfInjective | services/geminiService.ts:135-168 | The six lists use six different id prefixes |
| Service.GetProvider | services/geminiService.ts:9-18 | OpenAI is chosen exactly when its key is set; Gemini exactly when OpenAI's key is unset and the Gemini or legacy key is set; otherwise the call fails with the no-key message |
| Service.DispatchHasClient | services/geminiService.ts:20-22 | Once a provider is chosen its client exists, so the "No AI client available" branch is never taken |
| Service.RequestFor | services/geminiService.ts:96-112 | OpenAI requests use `gpt-4o` and carry the operation's temperature; Gemini requests use the configured model (default `gemini-2.5-pro`) and carry none; both carry the requested operation |
| Service.Dispatch | services/geminiService.ts:94-115 | The call fails with "no client" exactly when the provider's key is empty; otherwise it succeeds exactly when the SDK call for that provider's request does, with its reply, and an SDK failure keeps its message |
| Service.CallForJson | services/geminiService.ts:94-123 | An SDK failure is passed on; a reply without a brace span fails with "no JSON"; otherwise the call succeeds exactly when parsing the extracted span does, with the parsed value, and a parse failure keeps its message |
| Service.ParseResumeText | services/geminiService.ts:27-179 | With no key the call fails with the no-key message; any later failure (SDK, no JSON, bad JSON, malformed lists) becomes "Failed to parse resume with <provider>…"; it succeeds exactly when extraction, parsing and normalisation succeed, returning the normalised record |
| Service.ImproveResumeContent | services/geminiService.ts:182-248 | The same failure discipline with the improve message; on success the result is the post-processed JSON |
| Service.GenerateStyles | services/geminiService.ts:250-303 | With no key the call fails with the no-key message; with one it succeeds exactly when the call for JSON does, returning that JSON, and any failure becomes "Failed to generate styles with <provider>." |
| Braces.FirstIndex | services/geminiService.ts:118 | The returned index holds the character and no earlier index does; no index means the character is absent |
| Braces.LastIndex | services/geminiService.ts:118 | The returned index holds the character and no later index does; no index means the character is absent |
| Braces.MatchSpan | services/geminiService.ts:118 | The span found is the regular expression's match (leftmost start, then longest end); none is found only when no `{…}` span exists |
| Braces.ExtractJson | services/geminiService.ts:118-121 | Extraction succeeds exactly when some `{` precedes some `}`; the text it returns starts with `{` and ends with `}`; otherwise the error is "No valid JSON found in response" |
| Braces.ExtractJsonFrames | services/geminiService.ts:118-123 | The reply is the text before, the extracted object, and the text after; there is no `{` before it and no `}` after it |
| Braces.ExtractJsonFirstToLast | services/geminiService.ts:118-123 | The extracted text runs from the first `{` to the last `}` |
| Json.StringOrCases | services/geminiService.ts:137-141 | `field \|\| ''` keeps a string value and gives "" for a missing or falsy one |
| Normalize.MapEntries | services/geminiService.ts:135-172 | A list field maps to entries exactly when it is missing, falsy, or an array without nulls; the i-th entry is built from the i-th element with index i |
| Normalize.Description | services/geminiService.ts:142 | An array description keeps its length and its strings; a string becomes a one-bullet list; a missing or falsy one becomes `[""]` |
| Normalize.Years | services/geminiService.ts:159 | Years are kept when numeric and are 0 otherwise |
| Normalize.PersonalInfoOf | services/geminiService.ts:127-134 | A missing or falsy personalInfo gives six empty fields; an object's string fields are taken as they are |
| Normalize.ExperienceAt | services/geminiService.ts:135-144 | A parsed job gets id `exp-(index+1)`; each text field is the string it holds, or "" when missing or falsy; the bullets are coerced as above; `keyTech` is always present, read the same way |
| Normalize.EducationAt | services/geminiService.ts:145-151 | A parsed degree gets id `edu-(index+1)` and each text field is its string, or "" when missing or falsy |
| Normalize.CertificationAt | services/geminiService.ts:152-155 | A parsed certification gets id `cert-(index+1)` and its name, or "" |
| Normalize.SkillAt | services/geminiService.ts:156-160 | A parsed skill gets id `skill-(index+1)`, its name or "", and its years when numeric, else 0 |
| Normalize.ProjectAt | services/geminiService.ts:161-172 | A parsed project gets id `<prefix>-(index+1)` and each text field is its string, or "" |
| Normalize.Normalize | services/geminiService.ts:126-173 | Normalisation succeeds exactly when the parsed value is not null and every list field is usable; otherwise it is the TypeError the mapping throws |
| Normalize.NormalizeLists | services/geminiService.ts:126-173 | Every list of the record has one entry per parsed element, in order; entry i has id `prefix-(i+1)` and each field read from element i as above; personalInfo is as above |
| Normalize.NormalizeNumbersEntries | services/geminiService.ts:135-168 | Every list has as many entries as its JSON array, and entry i gets id `prefix-(i+1)` |
| Normalize.NormalizedIdsDistinct | services/geminiService.ts:135-168 | All ids of a parsed resume are distinct, within and across the six lists |
| Improve.CoerceDescription | services/geminiService.ts:239 | A description becomes an array: arrays are kept, a truthy scalar is wrapped, missing or falsy becomes `[""]` |
| Improve.ImprovePost | services/geminiService.ts:236-243 | A falsy or missing experience leaves the reply unchanged; otherwise only the experience key changes, it keeps its length, and each entry keeps its other fields, gains no key but `description`, and has as description the raw value if it was an array, `[value]` if truthy, `[""]` otherwise; a null reply or an unusable experience is a TypeError |
| Improve.ImprovePostIdempotent | services/geminiService.ts:236-241 | Post-processing twice equals post-processing once |
| ParseInt.SkipWhitespace | components/ResumeForm.tsx:25 | What remains after skipping is a suffix whose skipped prefix is all whitespace and whose first character is not |
| ParseInt.DigitRun | components/ResumeForm.tsx:25 | The run is the longest prefix of digits of the radix |
| ParseInt.RadixValueDecimal | components/ResumeForm.tsx:25 | The radix-10 value of a digit string is its decimal value |
| ParseInt.ParseMagnitude | components/ResumeForm.tsx:25 | A magnitude needs a leading digit; a leading digit not followed by an `x` after a 0 always yields one |
| ParseInt.ParseIntNaN | components/ResumeForm.tsx:25 | A number is read only when a digit or sign starts the trimmed input; a negative value needs a leading `-` and a positive one excludes it |
| ParseInt.ParseIntOrZero | components/ResumeForm.tsx:25 | `parseInt(value) \|\| 0` is nonzero only when a digit or sign starts the trimmed input, with its sign following the leading `-`; its values are pinned down by ParseInt.ParseIntOrZeroRoundTrip, ParseInt.ParseIntOrZeroNegativeRoundTrip and ParseInt.ParseIntOrZeroNoDigits |
| ParseInt.ParseIntOrZeroRoundTrip | components/ResumeForm.tsx:25 | `parseInt(String(n)) \|\| 0` gives back every natural number n |
| ParseInt.ParseIntOrZeroNegativeRoundTrip | components/ResumeForm.tsx:25 | `parseInt("-" + String(n)) \|\| 0` gives back -n |
| ParseInt.ParseIntOrZeroNoDigits | components/ResumeForm.tsx:25 | An input that does not start, after whitespace, with a digit or a sign gives 0 |
| Form.UpdateAt | components/ResumeForm.tsx:25 | Mapping with `i === index` changes only the indexed item and keeps the length |
| Form.UpdateAtIsUpdate | components/ResumeForm.tsx:25 | That map is sequence update at an index in range and the identity outside it |
| Form.RemoveAt | components/ResumeForm.tsx:43 | Filtering out index i removes exactly that item; an index out of range changes nothing |
| Form.HandlePersonalInfoChange | components/ResumeForm.tsx:12-15 | The named personal field takes the value; every other personal field and the rest of the resume are unchanged |
| Form.SetExperience | components/ResumeForm.tsx:25 | The named experience field takes the value; the other fields, the id and the bullets are unchanged |
| Form.SetEducation | components/ResumeForm.tsx:25 | The named education field takes the value; the others and the id are unchanged |
| Form.SetProject | components/ResumeForm.tsx:25 | The named project field takes the value; the others and the id are unchanged |
| Form.SetSkill | components/ResumeForm.tsx:25 | The name is stored as typed; years are stored as `parseInt(value) \|\| 0`; the id is unchanged |
| Form.HandleArrayChange | components/ResumeForm.tsx:18-27 | Only the entry at the index of the edited list changes, by the field edit; the list keeps its length and the other lists and personal info are unchanged |
| Form.AddArrayItem | components/ResumeForm.tsx:36-39 | The item is appended to its list and nothing else changes |
| Form.RemoveArrayItem | components/ResumeForm.tsx:41-44 | The entry at the index is removed from its list, nothing else changes, and an index out of range changes nothing |
| Form.HandleDescriptionChange | components/ResumeForm.tsx:29-33 | Only the chosen bullet of the chosen experience takes the value |
| Form.AddDescriptionPoint | components/ResumeForm.tsx:46-50 | An empty bullet is appended to the chosen experience only |
| Form.RemoveDescriptionPoint | components/ResumeForm.tsx:52-56 | The chosen bullet of the chosen experience is removed and nothing else changes |
| Form.NewEntry | components/ResumeForm.tsx:98-214 | The entry each Add button appends belongs to its list and carries the given id; every text field is empty, a job has one empty bullet and no `keyTech`, and a skill has 0 years |
| Form.RemoveUndoesAdd | components/ResumeForm.tsx:36-44 | Removing the entry just added restores the resume |
| Form.RemoveDescriptionPointUndoesAdd | components/ResumeForm.tsx:46-56 | Removing the bullet just added restores the resume |
| Docx.NonBlankParts | App.tsx:139-141 | The kept parts are all non-blank, all come from the input, and every non-blank input part is kept |
| Docx.JoinNonEmpty | App.tsx:139-141 | `joinNonEmpty` gives "" exactly when every part is blank |
| Docx.JoinNonEmptyByScan | App.tsx:139-141 | A single left-to-right scan that skips blank parts builds the same string as filter-then-join |
| Docx.Present | App.tsx:144 | Filtering the children keeps at most as many, keeps none exactly when all are absent, keeps every present child, and keeps nothing else |
| Docx.PresentSnoc | App.tsx:144 | A child added at the end adds its paragraph at the end, or nothing when it is absent, so present children keep their order |
| Docx.CreateSection | App.tsx:143-154 | A section is empty exactly when it has no child; otherwise it is its title heading followed by the present children |
| Docx.CreateSectionOfBlocks | App.tsx:143-154 | A section of present blocks is empty for no blocks and is the heading then the blocks otherwise |
| Docx.PresentOfAllPresent | App.tsx:143-154 | Filtering a list of present children gives the children back |
| Docx.FlatMapIndexed | App.tsx:268 | A flat-map is empty exactly when every entry contributes nothing |
| Docx.EducationEntry | App.tsx:268-284 | An education entry is left out exactly when both degree and institution are empty |
| Docx.ExperienceEntry | App.tsx:294-313 | An experience entry is left out exactly when title and company are empty and every bullet is blank |
| Docx.ProjectEntry | App.tsx:319-342 | A project is left out exactly when both name and description are empty |
| Docx.Bullets | App.tsx:309-311 | One bullet paragraph per line, in order |
| Docx.StripScheme | App.tsx:331 | A link starting with `https://` loses those eight characters, one starting with `http://` loses those seven, and any other link is kept |
| Docx.NormalizeLink | App.tsx:331 | The target starts with `https://`: an `https://` link is kept, an `http://` link gets `https://` in place of its scheme, and any other link gets `https://` in front |
| Docx.NormalizeLinkIdempotent | App.tsx:331 | Normalising a normalised link changes nothing |
| Docx.SkillLabel | App.tsx:222-232 | A skill shows its name, plus "(n yr/yrs)" or "(n year/years)" only when years are positive, with the singular exactly for one |
| Docx.SkillLabelShowsYears | App.tsx:222-232 | Two labels for the same skill name with positive years are equal only when the years are: the label determines the years it shows |
| Docx.ValidSkills | App.tsx:207 | Kept skills have non-blank names and come from the input; every skill with a non-blank name is kept; none is kept exactly when every name is blank |
| Docx.Chunks | App.tsx:210-214 | Chunking into threes loses nothing (concatenation gives the list back); every chunk has one to three items, all but the last exactly three, and there are ⌈n/3⌉ chunks |
| Docx.ChunksAt | App.tsx:210-214 | Chunk i holds the items from 3i on: three of them, or what remains at the end |
| Docx.PadRow | App.tsx:225 | A row is padded to three cells with empty cells after the skills |
| Docx.Labels | App.tsx:220-232 | One label per skill, in order |
| Docx.SkillRows | App.tsx:216-227 | The modern skills table has ⌈n/3⌉ rows of three cells; cell k of row i shows the short label of skill 3i+k, and is empty past the last skill |
| Docx.SkillsContent | App.tsx:206-237 | There is skills content exactly when some skill has a non-blank name |
| Docx.EducationOmittedIffAllSkipped | App.tsx:267-285 | The Education section is omitted exactly when every entry is skipped |
| Docx.ExperienceOmittedIffAllSkipped | App.tsx:293-314 | The Professional Experience section is omitted exactly when every entry is skipped |
| Docx.ProjectsOmittedIffAllSkipped | App.tsx:318-343 | A project section is omitted exactly when every project is skipped |
| Docx.DocumentBlocks | App.tsx:155-264 | The document opens with the name (or "Your Name") and the contact line; when there is a summary, its heading and text come next |
| Docx.HeaderOnlyIffNothingToExport | App.tsx:257-372 | The document is the two header paragraphs alone exactly when the summary is empty and every entry of every list is skipped or has a blank name |
| Docx.CertificationsOmittedIffAllBlank | App.tsx:287-291 | The Certifications section is omitted exactly when every name is blank |
| Docx.NewEntryNotExported | App.tsx:259-372 | An entry fresh from any Add button of the form leaves the exported document unchanged, for every template |
| Docx.SkippedExperienceNotExported | App.tsx:293-314 | Appending a job the exporter skips leaves the document unchanged |
| Docx.SkippedEducationNotExported | App.tsx:267-285 | Appending a degree the exporter skips leaves the document unchanged |
| Docx.BlankCertificationNotExported | App.tsx:287-291 | Appending a certification with a blank name leaves the document unchanged |
| Docx.BlankSkillNotExported | App.tsx:206-237 | Appending a skill with a blank name leaves the document unchanged, for every template |
| Docx.SkippedProjectNotExported | App.tsx:318-343 | Appending a project the exporter skips leaves the document unchanged |
| Docx.SkippedArchitecturalProjectNotExported | App.tsx:345-370 | Appending an architectural project the exporter skips leaves the document unchanged |
| Docx.FlatMapAppendSkipped | App.tsx:268 | Appending an entry that contributes nothing leaves a flat-map unchanged |
| Docx.ValidSkillsSnoc | App.tsx:207 | Appending a skill appends it to the valid skills exactly when its name is not blank; the others keep their order |
| App.Awaited | App.tsx:69-70 | A service failure reaches the catch clause as an Error, so the error shown is the service's message and never the fallback |
| App.InitialStylesAsWritten | App.tsx:37-40 | The default-styles table has no entry exactly for the professional template |
| App.ProfessionalPreviewFails | components/ResumePreview.tsx:17 | With the table as written, the preview cannot read its container class after the professional template is chosen |
| App.InitialStyles | App.tsx:17-40 | The corrected table agrees with the written one on classic and modern, and gives professional no overrides |
| App.InitialStylesRender | components/ResumePreview.tsx:17-95 | With the corrected table every region of every template has a class, and under professional it is the empty override |
| App.SlotClass | components/ResumePreview.tsx:17-95 | A region's class is its override when set and "" when unset; reading from undefined styles fails |
| App.BindPreferences | services/geminiService.ts:250-253 | The one parameter binds to the first argument: a string is sent as itself, an object as `[object Object]`, and no argument as `undefined` |
| App.BindIgnoresLaterArguments | services/geminiService.ts:250 | Arguments after the first never reach the prompt |
| App.RestylePreferencesAsWritten | App.tsx:67 | With the handler's three arguments the preferences sent are `[object Object]`, whatever the user typed |
| App.RestyleIgnoresPrompt | services/geminiService.ts:250-253 | Two different prompts produce the same style request and the same outcome |
| App.RestylePreferences | App.tsx:62-67 | Passing the prompt as the one argument sends it unchanged |
| App.RestyleKeepsPrompt | App.tsx:67 | Different prompts produce different style requests |
| App.StylesOf | services/geminiService.ts:298 | A style slot is set exactly when the generated object has a string under the slot's key, and it takes that string |
| App.HandleSelectTemplate | App.tsx:57-60 | Choosing a template sets it and resets the styles to its defaults; nothing else changes |
| App.StyleCustomizeStart | App.tsx:62-65 | Without a resume, restyling does nothing; with one it marks a request in flight and clears the previous error, and nothing else changes |
| App.StyleCustomizeSettle | App.tsx:66-73 | When the request returns: success replaces the styles, failure keeps them and shows the error message or the fallback; the in-flight flag is cleared and nothing else changes |
| App.HandleStyleCustomize | App.tsx:62-74 | Without a resume nothing changes; otherwise the new styles and no error on success, the old styles and the message on failure, no request in flight, and nothing else changes |
| App.ImproveContentStart | App.tsx:76-79 | Without a resume, improving does nothing; with one it marks a request in flight and clears the previous error |
| App.ImproveContentSettle | App.tsx:80-87 | Success replaces the resume; failure keeps it and shows the message or the fallback; the in-flight flag is cleared |
| App.HandleImproveContent | App.tsx:76-88 | Without a resume nothing changes; otherwise the screen still has a resume afterwards, the improved one on success and the old one with the message on failure, and nothing else changes |
| App.ResumeParseStart | App.tsx:380-383 | An upload marks parsing in flight, clears the previous error and keeps the uploaded text |
| App.ResumeParseSettle | App.tsx:384-392 | Success shows the parsed resume; failure clears the resume and shows the message or the parsing fallback; parsing is no longer in flight |
| App.HandleResumeParse | App.tsx:380-393 | After an upload the screen has a resume exactly when it has no parse error, exactly when parsing succeeded; the uploaded text is kept; template and styles are untouched |
| App.HandlersKeepIdle | App.tsx:57-88 | Every handler run to completion from an idle screen leaves it idle |
| App.SelectTemplateForgetsStyles | App.tsx:57-60 | Choosing a template discards any earlier restyle, and choosing it twice is choosing it once |
| App.ParseWithoutKey | App.tsx:380-393 | Uploading with no API key configured leaves no resume, shows the no-key message and keeps the text |
| App.RestyleFailureKeepsStyles | App.tsx:62-74 | A failed style request keeps the styles in force and shows the service's wrapped message, for any preferences string the service receives (the intended prompt or the `"[object Object]"` bound as written) |

## Left out

- The SDK clients, the prompts' wording and `JSON.parse` are parameters. The reply text of a provider is whatever the `Sdk` parameter returns; `completion.choices[0]?.message?.content || ''` is folded into it.
- Whether the Gemini client offers `getGenerativeModel` is a property of a library that is not part of this model.
- JSON numbers are integers: floating point is left out, so `Normalize.Years` keeps only whole numbers.
- Normalize.PersonalInfoOf: a truthy personalInfo that is not an object, and non-string values inside one, are read as empty strings; the code keeps such raw values. Absent fields read as "" where the code leaves them undefined, which every consumer treats alike.
- Normalize.Description: non-string elements of a description array are read as ""; the code keeps them as they are. A truthy description that is neither a string nor an array (such as `5`) is read as `[""]`, where the code wraps the raw value as `[5]` (services/geminiService.ts:142).
- Json.StringOrCases: a truthy non-string value under a string field is read as ""; the code keeps the raw value.
- Improve.ImprovePost: spreading an entry that is an array or a string (its indices become keys) is not modelled; such entries contribute no fields.
- App.HandleSelectTemplate: the state machine uses the corrected table `App.InitialStyles`, so choosing the professional template stores no overrides. The code stores `undefined` there (App.tsx:59 reading the table at App.tsx:37-40), after which the preview throws; that path is stated by `App.InitialStylesAsWritten` and `App.ProfessionalPreviewFails` and is not carried into `App.State`.
- App.StylesOf: non-string values in the generated styles object are dropped; the code's unchecked cast passes them to the preview as they are.
- App.HandleImproveContent: the improved JSON is cast to `ResumeData` without a check in the code; the model takes the awaited value as a `ResumeData`.
- ParseInt.ParseIntOrZeroRoundTrip: values beyond 2^53 lose precision in JavaScript; the model's integers are exact.
- Text.IsWhitespace: covers space, tab, the line breaks, vertical tab, form feed, no-break space and the byte-order mark; the other Unicode space separators and the line and paragraph separators that JavaScript's `trim` also removes are not included, so `IsBlank` and `SkipWhitespace` treat them as text.
- Form.HandleDescriptionChange: requires the bullet index to be in range; an out-of-range assignment would grow the array with holes, which the form never does.
- Form.RemoveDescriptionPoint, Form.AddDescriptionPoint, Form.HandleDescriptionChange: require the experience index to be in range; out of range the code throws a TypeError, which the form never triggers.
- The form's handlers read the list from the render-time closure and mutate shared experience objects in place. The model uses value semantics and applies every edit to the current resume, so stale-closure and aliasing effects are not modelled.
- New entries get `Date.now().toString()` as id; the model takes the id as a parameter.
- The asynchronous handlers are modelled as start and settle transitions; interleavings of several requests in flight are expressible but not studied.
- DOCX formatting (fonts, sizes, colours, borders, the modern header's table wrapper, hyperlink style), `Packer.toBlob`, `saveAs`, and the alert shown when the DOCX library has not loaded are outside the model; the model lists the paragraphs and sections in order.
- Logging: the `console.error` calls in the service's catch blocks (services/geminiService.ts:177, 245, 300) and the one before the missing-library alert (App.tsx:128) are not modelled; they do not change any result or state.
- PDF export (`handleDownloadPdf`) renders the page to a canvas and is left out.
- The presentation components (preview layout, uploader, selectors, panels, provider settings), the test scripts, and the build configuration are not part of this model.

## Findings

| source | as written | input that shows it | evidently intended | confidence | as-written member | corrected member |
|---|---|---|---|---|---|---|
| App.tsx:67 | The restyle handler calls `generateStyles(resumeData, customStyles, prompt)`, but the service takes one parameter, `preferences` (services/geminiService.ts:250). The resume object becomes the preferences and renders as `[object Object]`; the prompt and the current styles are dropped. Vite does not type-check, so the mismatch compiles. | Any resume and the prompt "use a blue theme": the request asks for styles matching `[object Object]` | Send the user's prompt as the preferences | high, not executed | App.RestylePreferencesAsWritten, App.RestyleIgnoresPrompt | App.RestylePreferences, App.RestyleKeepsPrompt |
| App.tsx:37-40 | The default-styles table has entries for `classic` and `modern` only, while `Template` also allows `professional` and the selector offers it. Choosing it sets the styles to `undefined`, and the preview then reads `styles.container` (components/ResumePreview.tsx:17), which throws. | Select the Professional template | Give the professional template its own (possibly empty) defaults; the screen-state model uses these | high, not executed | App.InitialStylesAsWritten, App.ProfessionalPreviewFails | App.InitialStyles, App.InitialStylesRender, App.HandleSelectTemplate |

=== FILE: app.dfy ===
/** `App.tsx`: the top-level screen state and the handlers that change it.
    Each asynchronous handler is split at its `await`: a start transition
    applied when the user acts, and a settle transition applied to whatever
    the state is when the awaited call returns. The awaited call itself is a
    parameter (its outcome), so the handlers are pure state transitions. */
module App {
  import opened Wrappers
  import opened Types
  import Json
  import Service

  /** What a `catch` clause receives: an `Error` object with a message, or
      any other thrown value. */
  datatype Thrown = ErrorValue(message: string) | OtherValue

  const UnknownError := "An unknown error occurred."
  const UnknownParseError := "An unknown error occurred during parsing."

  /** `err instanceof Error ? err.message : fallback`. */
  function ErrorMessage(err: Thrown, fallback: string): string {
    match err
    case ErrorValue(m) => m
    case OtherValue => fallback
  }

  /** A service failure arrives in the `catch` clause as an `Error`. */
  function Awaited<T>(r: Result<T, string>): (o: Result<T, Thrown>)
    ensures o.Success? <==> r.Success?
    ensures o.Success? ==> o.value == r.value
    ensures o.Failure? ==> ErrorMessage(o.error, UnknownError) == r.error
    ensures o.Failure? ==> ErrorMessage(o.error, UnknownParseError) == r.error
  {
    match r
    case Success(v) => Success(v)
    case Failure(m) => Failure(ErrorValue(m))
  }

  // ---------------------------------------------------------------------
  // Default styles
  // ---------------------------------------------------------------------

  const ClassicStyles: CustomStyles := map[
    Container := "font-serif",
    Name := "text-4xl font-bold text-gray-800",
    ContactInfo := "text-sm text-gray-600",
    SectionTitle := "text-xl font-bold text-gray-800 border-b-2 border-gray-800 pb-1 mb-3",
    ItemTitle := "text-lg font-semibold",
    ItemSubtitle := "italic"]

  const ModernStyles: CustomStyles := map[
    Container := "font-sans",
    Header := "bg-gray-800 text-white p-6 -mx-10 -mt-10 mb-6",
    Name := "text-5xl font-light text-white tracking-wider",
    ContactInfo := "text-sm text-gray-300",
    SectionTitle := "text-lg font-semibold text-indigo-600 uppercase tracking-wider border-b-2 border-indigo-200 pb-1 mb-4",
    ItemTitle := "text-lg font-bold text-gray-900",
    ItemSubtitle := "text-gray-600",
    SkillItem := "bg-indigo-100 text-indigo-800"]

  /** The default-styles table as written: it has entries for the classic
      and modern templates only, so looking up the professional template
      yields `undefined`. */
  function InitialStylesAsWritten(t: Template): (r: Option<CustomStyles>)
    ensures r.None? <==> t == Professional
  {
    match t
    case Classic => Some(ClassicStyles)
    case Modern => Some(ModernStyles)
    case Professional => None
  }

  /** The default-styles table with the professional template given no
      overrides, so the preview falls back to its base classes. */
  function InitialStyles(t: Template): (r: CustomStyles)
    ensures t != Professional ==> InitialStylesAsWritten(t) == Some(r)
    ensures t == Professional ==> r == map[]
  {
    match t
    case Classic => ClassicStyles
    case Modern => ModernStyles
    case Professional => map[]
  }

  /** The class a preview region adds: `styles.slot || ''`. Reading a slot
      of `undefined` throws, which is a `TypeError` while rendering. */
  function SlotClass(styles: Option<CustomStyles>, slot: StyleSlot): (r: Option<string>)
    ensures r.None? <==> styles.None?
    ensures styles.Some? && slot !in styles.value ==> r == Some("")
    ensures styles.Some? && slot in styles.value ==> r == Some(styles.value[slot])
  {
    match styles
    case None => None
    case Some(m) => if slot in m then Some(m[slot]) else Some("")
  }

  /** Selecting the professional template leaves the preview nothing to
      read its container class from. */
  lemma ProfessionalPreviewFails()
    ensures SlotClass(InitialStylesAsWritten(Professional), Container).None?
  {
  }

  /** With the corrected table every template renders every region. */
  lemma InitialStylesRender(t: Template, slot: StyleSlot)
    ensures SlotClass(Some(InitialStyles(t)), slot).Some?
    ensures t == Professional ==> SlotClass(Some(InitialStyles(t)), slot) == Some("")
  {
  }

  // ---------------------------------------------------------------------
  // Style preferences sent by the restyle handler
  // ---------------------------------------------------------------------

  /** `String(obj)` for a plain object. */
  const ObjectString := "[object Object]"

  /** A positional argument of the call the restyle handler makes. */
  datatype Argument =
    | StringArgument(text: string)
    | ResumeArgument(data: ResumeData)
    | StylesArgument(styles: CustomStyles)

  /** How `generateStyles(preferences)` receives a call: its one parameter
      binds to the first argument and any further argument is dropped;
      `${preferences}` then renders a string as itself, an object as
      `[object Object]` and a missing argument as `undefined`. */
  function BindPreferences(args: seq<Argument>): (preferences: string)
    ensures |args| == 0 ==> preferences == "undefined"
    ensures |args| > 0 && args[0].StringArgument? ==> preferences == args[0].text
    ensures |args| > 0 && !args[0].StringArgument? ==> preferences == ObjectString
  {
    if |args| == 0 then "undefined"
    else match args[0]
      case StringArgument(text) => text
      case _ => ObjectString
  }

  /** Arguments after the first never reach the prompt. */
  lemma BindIgnoresLaterArguments(first: Argument, rest1: seq<Argument>, rest2: seq<Argument>)
    ensures BindPreferences([first] + rest1) == BindPreferences([first] + rest2)
  {
    assert ([first] + rest1)[0] == first == ([first] + rest2)[0];
  }

  /** The handler's call `generateStyles(resumeData, customStyles, prompt)`:
      the resume object comes first and the prompt last. */
  function RestyleArgumentsAsWritten(data: ResumeData, styles: CustomStyles, prompt: string): seq<Argument> {
    [ResumeArgument(data), StylesArgument(styles), StringArgument(prompt)]
  }

  /** The preferences the service receives from the handler as written: the
      resume object, rendered as `[object Object]`; the styles and the
      prompt are dropped. */
  function RestylePreferencesAsWritten(data: ResumeData, styles: CustomStyles, prompt: string): (preferences: string)
    ensures preferences == ObjectString
  {
    BindPreferences(RestyleArgumentsAsWritten(data, styles, prompt))
  }

  /** Whatever the user asks for, the request is the same. */
  lemma RestyleIgnoresPrompt(env: Service.Env, data: ResumeData, styles: CustomStyles, p1: string, p2: string,
                             sdk: Service.Sdk, parse: Service.JsonParser)
    ensures Service.GenerateStyles(env, RestylePreferencesAsWritten(data, styles, p1), sdk, parse)
         == Service.GenerateStyles(env, RestylePreferencesAsWritten(data, styles, p2), sdk, parse)
    ensures RestylePreferencesAsWritten(data, styles, "use a blue theme") != "use a blue theme"
  {
  }

  /** The preferences the handler evidently means to send: the call
      `generateStyles(prompt)`, whose one argument is the user's prompt. */
  function RestylePreferences(prompt: string): (preferences: string)
    ensures preferences == prompt
  {
    BindPreferences([StringArgument(prompt)])
  }

  /** Distinct prompts reach the model as distinct style requests. */
  lemma RestyleKeepsPrompt(p1: string, p2: string)
    requires p1 != p2
    ensures Service.StyleTask(RestylePreferences(p1)) != Service.StyleTask(RestylePreferences(p2))
  {
  }

  /** The style slot a JSON key names. */
  function SlotKey(slot: StyleSlot): string {
    match slot
    case Container => "container"
    case Header => "header"
    case Name => "name"
    case ContactInfo => "contactInfo"
    case Summary => "summary"
    case Section => "section"
    case SectionTitle => "sectionTitle"
    case ItemHeader => "itemHeader"
    case ItemTitle => "itemTitle"
    case ItemSubtitle => "itemSubtitle"
    case ItemDate => "itemDate"
    case ItemList => "itemList"
    case ListItem => "listItem"
    case SkillsList => "skillsList"
    case SkillItem => "skillItem"
  }

  const AllSlots: set<StyleSlot> := {
    Container, Header, Name, ContactInfo, Summary, Section, SectionTitle,
    ItemHeader, ItemTitle, ItemSubtitle, ItemDate, ItemList, ListItem,
    SkillsList, SkillItem}

  /** The styles a generated JSON object sets: each slot whose key holds a
      string. */
  function StylesOf(j: Json.Json): (styles: CustomStyles)
    ensures forall slot :: slot in styles <==>
      j.JObj? && SlotKey(slot) in j.fields && j.fields[SlotKey(slot)].JStr?
    ensures forall slot :: slot in styles ==> styles[slot] == j.fields[SlotKey(slot)].s
  {
    if j.JObj? then
      map slot | slot in AllSlots && SlotKey(slot) in j.fields && j.fields[SlotKey(slot)].JStr?
        :: j.fields[SlotKey(slot)].s
    else map[]
  }

  // ---------------------------------------------------------------------
  // Screen state and handlers
  // ---------------------------------------------------------------------

  datatype State = State(
    resumeData: Option<ResumeData>,
    template: Template,
    customStyles: CustomStyles,
    isStyling: bool,
    styleError: Option<string>,
    isParsing: bool,
    parsingError: Option<string>,
    originalResumeText: Option<string>,
    isImproving: bool,
    improvingError: Option<string>)

  const InitialState := State(None, Classic, ClassicStyles, false, None, false, None, None, false, None)

  /** No request is in flight. */
  predicate Idle(st: State) {
    !st.isStyling && !st.isParsing && !st.isImproving
  }

  /** Choosing a template replaces any customisation with its defaults. */
  function HandleSelectTemplate(st: State, t: Template): (r: State)
    ensures r.template == t && r.customStyles == InitialStyles(t)
    ensures r.(template := st.template, customStyles := st.customStyles) == st
  {
    st.(template := t, customStyles := InitialStyles(t))
  }

  /** What the restyle handler does before its `await`; without a resume it
      does nothing and makes no request. */
  function StyleCustomizeStart(st: State): (r: State)
    ensures st.resumeData.None? ==> r == st
    ensures st.resumeData.Some? ==> r.isStyling && r.styleError == None
    ensures r.(isStyling := st.isStyling, styleError := st.styleError) == st
  {
    if st.resumeData.None? then st else st.(isStyling := true, styleError := None)
  }

  /** What the restyle handler does once its request has returned. */
  function StyleCustomizeSettle(st: State, outcome: Result<CustomStyles, Thrown>): (r: State)
    ensures !r.isStyling
    ensures outcome.Success? ==> r.customStyles == outcome.value && r.styleError == st.styleError
    ensures outcome.Failure? ==>
      r.customStyles == st.customStyles && r.styleError == Some(ErrorMessage(outcome.error, UnknownError))
    ensures r.(customStyles := st.customStyles, styleError := st.styleError, isStyling := st.isStyling) == st
  {
    match outcome
    case Success(styles) => st.(customStyles := styles, isStyling := false)
    case Failure(err) => st.(styleError := Some(ErrorMessage(err, UnknownError)), isStyling := false)
  }

  /** The whole restyle handler when nothing else happens while it waits.
      Without a resume it does nothing. Otherwise it replaces the styles
      wholesale on success and reports the error on failure, leaving the
      styles as they were; either way it ends with no request in flight and
      touches nothing else. */
  function HandleStyleCustomize(st: State, outcome: Result<CustomStyles, Thrown>): (r: State)
    ensures st.resumeData.None? ==> r == st
    ensures st.resumeData.Some? ==>
      && !r.isStyling
      && (outcome.Success? ==> r.customStyles == outcome.value && r.styleError == None)
      && (outcome.Failure? ==>
            r.customStyles == st.customStyles && r.styleError == Some(ErrorMessage(outcome.error, UnknownError)))
      && r.(customStyles := st.customStyles, styleError := st.styleError, isStyling := st.isStyling) == st
  {
    if st.resumeData.None? then st
    else
      var mid := StyleCustomizeStart(st);
      assert mid.(isStyling := st.isStyling, styleError := st.styleError) == st;
      StyleCustomizeSettle(mid, outcome)
  }

  /** What the improve handler does before its `await`. */
  function ImproveContentStart(st: State): (r: State)
    ensures st.resumeData.None? ==> r == st
    ensures st.resumeData.Some? ==> r.isImproving && r.improvingError == None
    ensures r.(isImproving := st.isImproving, improvingError := st.improvingError) == st
  {
    if st.resumeData.None? then st else st.(isImproving := true, improvingError := None)
  }

  /** What the improve handler does once its request has returned: a
      failure keeps the resume the user had. */
  function ImproveContentSettle(st: State, outcome: Result<ResumeData, Thrown>): (r: State)
    ensures !r.isImproving
    ensures outcome.Success? ==> r.resumeData == Some(outcome.value) && r.improvingError == st.improvingError
    ensures outcome.Failure? ==>
      r.resumeData == st.resumeData && r.improvingError == Some(ErrorMessage(outcome.error, UnknownError))
    ensures r.(resumeData := st.resumeData, improvingError := st.improvingError, isImproving := st.isImproving) == st
  {
    match outcome
    case Success(data) => st.(resumeData := Some(data), isImproving := false)
    case Failure(err) => st.(improvingError := Some(ErrorMessage(err, UnknownError)), isImproving := false)
  }

  /** The whole improve handler. An improvement never loses the resume:
      after it the screen still has one, the improved one on success and
      the old one on failure. */
  function HandleImproveContent(st: State, outcome: Result<ResumeData, Thrown>): (r: State)
    ensures st.resumeData.None? ==> r == st
    ensures st.resumeData.Some? ==>
      && r.resumeData.Some?
      && !r.isImproving
      && (outcome.Success? ==> r.resumeData == Some(outcome.value) && r.improvingError == None)
      && (outcome.Failure? ==>
            r.resumeData == st.resumeData && r.improvingError == Some(ErrorMessage(outcome.error, UnknownError)))
      && r.(resumeData := st.resumeData, improvingError := st.improvingError, isImproving := st.isImproving) == st
  {
    if st.resumeData.None? then st
    else
      var mid := ImproveContentStart(st);
      assert mid.(isImproving := st.isImproving, improvingError := st.improvingError) == st;
      ImproveContentSettle(mid, outcome)
  }

  /** What the parse handler does before its `await`: the uploaded text is
      kept whatever the outcome. */
  function ResumeParseStart(st: State, text: string): (r: State)
    ensures r.isParsing && r.parsingError == None && r.originalResumeText == Some(text)
    ensures r.(isParsing := st.isParsing, parsingError := st.parsingError, originalResumeText := st.originalResumeText) == st
  {
    st.(isParsing := true, parsingError := None, originalResumeText := Some(text))
  }

  /** What the parse handler does once its request has returned: a failure
      clears the resume. */
  function ResumeParseSettle(st: State, outcome: Result<ResumeData, Thrown>): (r: State)
    ensures !r.isParsing
    ensures outcome.Success? ==> r.resumeData == Some(outcome.value) && r.parsingError == st.parsingError
    ensures outcome.Failure? ==>
      r.resumeData == None && r.parsingError == Some(ErrorMessage(outcome.error, UnknownParseError))
    ensures r.(resumeData := st.resumeData, parsingError := st.parsingError, isParsing := st.isParsing) == st
  {
    match outcome
    case Success(data) => st.(resumeData := Some(data), isParsing := false)
    case Failure(err) => st.(parsingError := Some(ErrorMessage(err, UnknownParseError)), resumeData := None, isParsing := false)
  }

  /** The whole parse handler. Afterwards the screen shows exactly one of
      a resume or a parse error, the resume exactly when parsing
      succeeded, and keeps the uploaded text; the template and styles are
      untouched. */
  function HandleResumeParse(st: State, text: string, outcome: Result<ResumeData, Thrown>): (r: State)
    ensures r.resumeData.Some? <==> r.parsingError.None?
    ensures r.resumeData.Some? <==> outcome.Success?
    ensures outcome.Success? ==> r.resumeData == Some(outcome.value)
    ensures outcome.Failure? ==> r.parsingError == Some(ErrorMessage(outcome.error, UnknownParseError))
    ensures r.originalResumeText == Some(text)
    ensures !r.isParsing
    ensures r.(resumeData := st.resumeData, parsingError := st.parsingError, isParsing := st.isParsing,
               originalResumeText := st.originalResumeText) == st
  {
    var mid := ResumeParseStart(st, text);
    assert mid.parsingError == None;
    ResumeParseSettle(mid, outcome)
  }

  /** Each handler run to completion from an idle screen leaves it idle. */
  lemma HandlersKeepIdle(st: State, t: Template, text: string,
                         styled: Result<CustomStyles, Thrown>, improved: Result<ResumeData, Thrown>,
                         parsed: Result<ResumeData, Thrown>)
    requires Idle(st)
    ensures Idle(HandleSelectTemplate(st, t))
    ensures Idle(HandleStyleCustomize(st, styled))
    ensures Idle(HandleImproveContent(st, improved))
    ensures Idle(HandleResumeParse(st, text, parsed))
  {
  }

  /** Selecting a template forgets every earlier restyle: the result does
      not depend on the styles in force before. */
  lemma SelectTemplateForgetsStyles(st: State, styles: CustomStyles, t: Template)
    ensures HandleSelectTemplate(st.(customStyles := styles), t) == HandleSelectTemplate(st, t)
    ensures HandleSelectTemplate(HandleSelectTemplate(st, t), t) == HandleSelectTemplate(st, t)
  {
  }

  /** Uploading without a configured API key: no resume, the key message
      shown, the uploaded text kept. */
  lemma ParseWithoutKey(st: State, env: Service.Env, text: string, sdk: Service.Sdk, parse: Service.JsonParser)
    requires Service.GetProvider(env).Failure?
    ensures var r := HandleResumeParse(st, text, Awaited(Service.ParseResumeText(env, text, sdk, parse)));
      && r.resumeData == None
      && r.parsingError == Some(Service.NoApiKeyMessage)
      && r.originalResumeText == Some(text)
  {
    var call := Service.ParseResumeText(env, text, sdk, parse);
    assert call == Failure(Service.NoApiKeyMessage);
  }

  /** A failed restyle request shows the service's wrapped message and keeps
      the styles in force, whatever preferences reach the service: the
      prompt, as intended, or the `"[object Object]"` the handler binds as
      written. */
  lemma RestyleFailureKeepsStyles(st: State, env: Service.Env, preferences: string, sdk: Service.Sdk,
                                  parse: Service.JsonParser)
    requires st.resumeData.Some?
    requires Service.GenerateStyles(env, preferences, sdk, parse).Failure?
    ensures var call := Service.GenerateStyles(env, preferences, sdk, parse);
      var r := HandleStyleCustomize(st, Awaited(call).MapSuccess(StylesOf));
      && r.customStyles == st.customStyles
      && r.styleError == Some(call.error)
      && !r.isStyling
  {
  }
}

=== FILE: braces.dfy ===
/** Recovery of the JSON object from the raw model text with the regular
    expression `/\{[\s\S]*\}/`: the first `{` through the last `}`. */
module Braces {
  import opened Wrappers

  const NoJsonMessage := "No valid JSON found in response"

  /** `s[a..b]` is a string the pattern accepts: it opens with `{`, closes
      with `}` and the two are distinct characters. */
  predicate IsMatchAt(s: string, a: int, b: int) {
    0 <= a && a + 2 <= b <= |s| && s[a] == '{' && s[b - 1] == '}'
  }

  /** The match a backtracking engine reports: the leftmost start at which
      the pattern matches at all, and at that start the longest span, as the
      greedy `[\s\S]*` backs off only as far as the last `}`. */
  ghost predicate IsRegexMatch(s: string, a: int, b: int) {
    && IsMatchAt(s, a, b)
    && (forall a', b' :: IsMatchAt(s, a', b') ==> a <= a')
    && (forall b' :: IsMatchAt(s, a, b') ==> b' <= b)
  }

  /** Index of the first occurrence of `c` in `s`. */
  function FirstIndex(s: string, c: char): (r: Option<nat>)
    ensures r.Some? ==> r.value < |s| && s[r.value] == c
    ensures r.Some? ==> forall k :: 0 <= k < r.value ==> s[k] != c
    ensures r.None? ==> forall k :: 0 <= k < |s| ==> s[k] != c
  {
    if |s| == 0 then None
    else if s[0] == c then Some(0)
    else match FirstIndex(s[1..], c)
      case None => None
      case Some(i) => Some(i + 1)
  }

  /** Index of the last occurrence of `c` in `s`. */
  function LastIndex(s: string, c: char): (r: Option<nat>)
    ensures r.Some? ==> r.value < |s| && s[r.value] == c
    ensures r.Some? ==> forall k :: r.value < k < |s| ==> s[k] != c
    ensures r.None? ==> forall k :: 0 <= k < |s| ==> s[k] != c
  {
    if |s| == 0 then None
    else if s[|s| - 1] == c then Some(|s| - 1)
    else LastIndex(s[..|s| - 1], c)
  }

  /** The bounds `[a, b)` of the match, if the pattern matches. */
  function MatchSpan(s: string): (r: Option<(nat, nat)>)
    ensures r.Some? ==> IsRegexMatch(s, r.value.0, r.value.1)
    ensures r.None? ==> forall a, b :: !IsMatchAt(s, a, b)
  {
    match FirstIndex(s, '{')
    case None => None
    case Some(i) =>
      match LastIndex(s, '}')
      case None => None
      case Some(j) => if i < j then Some((i, j + 1)) else None
  }

  /** `response.match(/\{[\s\S]*\}/)` followed by the service's guard:
      the matched text, or the error thrown when there is no match. */
  function ExtractJson(s: string): (r: Result<string, string>)
    ensures r.Success? <==> exists a, b :: IsMatchAt(s, a, b)
    ensures r.Success? ==> 2 <= |r.value| && r.value[0] == '{' && r.value[|r.value| - 1] == '}'
    ensures r.Failure? ==> r.error == NoJsonMessage
  {
    match MatchSpan(s)
    case None => Failure(NoJsonMessage)
    case Some((a, b)) => Success(s[a..b])
  }

  /** The extracted text is exactly the span between the first `{` and the
      last `}`: nothing before it contains `{` and nothing after it `}`. */
  lemma ExtractJsonFrames(s: string)
    requires ExtractJson(s).Success?
    ensures MatchSpan(s).Some?
    ensures var (a, b) := MatchSpan(s).value;
      && s == s[..a] + ExtractJson(s).value + s[b..]
      && (forall k :: 0 <= k < a ==> s[k] != '{')
      && (forall k :: b <= k < |s| ==> s[k] != '}')
  {
    var (a, b) := MatchSpan(s).value;
    assert FirstIndex(s, '{') == Some(a);
    assert LastIndex(s, '}') == Some(b - 1);
  }

  /** Whenever a `}` follows the first `{`, extraction returns the text from
      that `{` through the last `}`. */
  lemma ExtractJsonFirstToLast(s: string, i: nat, j: nat)
    requires i < j < |s| && s[i] == '{' && s[j] == '}'
    requires forall k :: 0 <= k < i ==> s[k] != '{'
    requires forall k :: j < k < |s| ==> s[k] != '}'
    ensures ExtractJson(s) == Success(s[i..j + 1])
  {
    assert IsMatchAt(s, i, j + 1);
    var (a, b) := MatchSpan(s).value;
    assert IsMatchAt(s, a, b);
    assert s[a] == '{' && s[b - 1] == '}';
  }
}

=== FILE: docx.dfy ===
/** The text content `handleDownloadDocx` assembles: which paragraphs the
    Word document gets and what they say. Fonts, sizes, colours, borders
    and the `docx` objects themselves are left to the library. */
module Docx {
  import opened Wrappers
  import opened Text
  import opened Types
  import opened Sections
  import Form

  // ---------------------------------------------------------------------
  // joinNonEmpty

  /** `parts.filter(p => p && p.trim())`. */
  function NonBlankParts(parts: seq<string>): (r: seq<string>)
    ensures |r| <= |parts|
    ensures forall i :: 0 <= i < |r| ==> !IsBlank(r[i])
    ensures forall i :: 0 <= i < |r| ==> r[i] in parts
    ensures forall i :: 0 <= i < |parts| && !IsBlank(parts[i]) ==> parts[i] in r
  {
    if |parts| == 0 then []
    else (if IsBlank(parts[0]) then [] else [parts[0]]) + NonBlankParts(parts[1..])
  }

  /** `joinNonEmpty`: the parts that are not blank, in order, separated by
      `sep`. */
  function JoinNonEmpty(parts: seq<string>, sep: string): (r: string)
    ensures r == "" <==> forall i :: 0 <= i < |parts| ==> IsBlank(parts[i])
  {
    JoinOfNonBlankIsEmptyIff(NonBlankParts(parts), sep);
    Join(NonBlankParts(parts), sep)
  }

  lemma {:induction false} NonBlankPartsSnoc(parts: seq<string>, p: string)
    ensures NonBlankParts(parts + [p]) == NonBlankParts(parts) + (if IsBlank(p) then [] else [p])
    decreases |parts|
  {
    if |parts| == 0 {
      assert parts + [p] == [p];
    } else {
      assert (parts + [p])[1..] == parts[1..] + [p];
      NonBlankPartsSnoc(parts[1..], p);
    }
  }

  lemma {:induction false} JoinSnoc(parts: seq<string>, p: string, sep: string)
    ensures Join(parts + [p], sep) == if |parts| == 0 then p else Join(parts, sep) + sep + p
    decreases |parts|
  {
    if |parts| > 1 {
      assert (parts + [p])[1..] == parts[1..] + [p];
      JoinSnoc(parts[1..], p, sep);
    } else if |parts| == 1 {
      assert (parts + [p])[1..] == [p];
    }
  }

  /** Joining with a separator starts with the first part. */
  lemma {:induction false} JoinStartsWithFirst(parts: seq<string>, sep: string)
    requires |parts| > 0
    ensures |Join(parts, sep)| >= |parts[0]|
  {
  }

  /** Joining parts none of which is blank gives the empty text exactly
      when there is nothing to join. */
  lemma {:induction false} JoinOfNonBlankIsEmptyIff(kept: seq<string>, sep: string)
    requires forall i :: 0 <= i < |kept| ==> !IsBlank(kept[i])
    ensures Join(kept, sep) == "" <==> kept == []
  {
    if |kept| > 0 {
      JoinStartsWithFirst(kept, sep);
      assert !IsBlank(kept[0]);
      assert |kept[0]| > 0;
    }
  }

  /** One pass over the parts, appending each non-blank part after the
      separator once something has been written. It builds the same text
      as filtering and then joining. */
  method JoinNonEmptyByScan(parts: seq<string>, sep: string) returns (out: string)
    ensures out == JoinNonEmpty(parts, sep)
  {
    out := "";
    var written := false;
    var i := 0;
    while i < |parts|
      invariant 0 <= i <= |parts|
      invariant out == JoinNonEmpty(parts[..i], sep)
      invariant written <==> |NonBlankParts(parts[..i])| > 0
    {
      assert parts[..i + 1] == parts[..i] + [parts[i]];
      NonBlankPartsSnoc(parts[..i], parts[i]);
      if !IsBlank(parts[i]) {
        JoinSnoc(NonBlankParts(parts[..i]), parts[i], sep);
        out := if written then out + sep + parts[i] else parts[i];
        written := true;
      } else {
        assert NonBlankParts(parts[..i + 1]) == NonBlankParts(parts[..i]);
      }
      i := i + 1;
    }
    assert parts[..|parts|] == parts;
  }

  // ---------------------------------------------------------------------
  // Paragraphs

  /** A paragraph of the document, by role. */
  datatype Block =
    | HeaderName(text: string)
    | HeaderContact(text: string)
    | Heading(title: string)
    | EntryTitle(text: string, spacingBefore: nat)
    | Subtitle(text: string)
    | DateLine(text: string)
    | Bullet(text: string)
    | Link(text: string, url: string)
    | Body(text: string)
    | SkillsTable(rows: seq<seq<string>>)

  /** `s || fallback` for a string. */
  function OrDefault(s: string, fallback: string): string {
    if s != "" then s else fallback
  }

  /** The children of a section with every falsy child dropped. */
  function Present(children: seq<Option<Block>>): (r: seq<Block>)
    ensures |r| <= |children|
    ensures (forall i :: 0 <= i < |children| ==> children[i].None?) <==> r == []
    ensures forall i :: 0 <= i < |children| && children[i].Some? ==> children[i].value in r
    ensures forall i :: 0 <= i < |r| ==> Some(r[i]) in children
  {
    if |children| == 0 then []
    else (if children[0].Some? then [children[0].value] else []) + Present(children[1..])
  }

  /** Adding a child at the end adds its paragraph at the end, or nothing
      when the child is falsy: the present children keep their order. */
  lemma {:induction false} PresentSnoc(children: seq<Option<Block>>, c: Option<Block>)
    ensures Present(children + [c]) == Present(children) + (if c.Some? then [c.value] else [])
    decreases |children|
  {
    if |children| == 0 {
      assert children + [c] == [c];
    } else {
      assert (children + [c])[1..] == children[1..] + [c];
      PresentSnoc(children[1..], c);
    }
  }

  /** `createSection`: nothing when no child is present; otherwise the
      title followed by the present children in order. */
  function CreateSection(title: string, children: seq<Option<Block>>): (r: seq<Block>)
    ensures r == [] <==> forall i :: 0 <= i < |children| ==> children[i].None?
    ensures r != [] ==> r[0] == Heading(title) && r[1..] == Present(children)
  {
    var valid := Present(children);
    if |valid| == 0 then [] else [Heading(title)] + valid
  }

  /** Children that are all present, as the list-based sections pass them. */
  function AllPresent(blocks: seq<Block>): (r: seq<Option<Block>>)
    ensures |r| == |blocks|
    ensures forall i :: 0 <= i < |r| ==> r[i] == Some(blocks[i])
  {
    seq(|blocks|, i requires 0 <= i < |blocks| => Some(blocks[i]))
  }

  /** A section built from blocks that are all present is empty exactly when
      there are no blocks, and is otherwise the title and the blocks. */
  lemma CreateSectionOfBlocks(title: string, blocks: seq<Block>)
    ensures CreateSection(title, AllPresent(blocks)) == if blocks == [] then [] else [Heading(title)] + blocks
  {
    PresentOfAllPresent(blocks);
  }

  lemma {:induction false} PresentOfAllPresent(blocks: seq<Block>)
    ensures Present(AllPresent(blocks)) == blocks
    decreases |blocks|
  {
    if |blocks| > 0 {
      assert AllPresent(blocks)[1..] == AllPresent(blocks[1..]);
      PresentOfAllPresent(blocks[1..]);
    }
  }

  /** The space above an entry's first line: the first entry of the list,
      counted before any entry is skipped, gets less. */
  function Spacing(index: nat): nat {
    if index == 0 then 100 else 200
  }

  /** `list.flatMap((x, i) => entry(x, i))` from position `start` on. */
  function FlatMapIndexed<T>(s: seq<T>, entry: (T, nat) -> seq<Block>, start: nat): (r: seq<Block>)
    ensures r == [] <==> forall i :: 0 <= i < |s| ==> entry(s[i], start + i) == []
    decreases |s|
  {
    if |s| == 0 then []
    else entry(s[0], start) + FlatMapIndexed(s[1..], entry, start + 1)
  }

  // ---------------------------------------------------------------------
  // Entry skipping rules

  predicate SkipsEducation(e: Education) {
    e.degree == "" && e.institution == ""
  }

  predicate SkipsExperience(e: Experience) {
    e.jobTitle == "" && e.company == "" && forall k :: 0 <= k < |e.description| ==> IsBlank(e.description[k])
  }

  predicate SkipsProject(p: Project) {
    p.name == "" && p.description == ""
  }

  function EducationEntry(e: Education, index: nat): (r: seq<Block>)
    ensures r == [] <==> SkipsEducation(e)
  {
    if SkipsEducation(e) then []
    else [
      EntryTitle(OrDefault(e.degree, "Degree"), Spacing(index)),
      Subtitle(JoinNonEmpty([e.institution, e.location], " - ")),
      DateLine(e.gradDate)
    ]
  }

  function ExperienceEntry(e: Experience, index: nat): (r: seq<Block>)
    ensures r == [] <==> SkipsExperience(e)
  {
    if SkipsExperience(e) then []
    else
      [ EntryTitle(OrDefault(e.jobTitle, "Job Title"), Spacing(index)),
        Subtitle(JoinNonEmpty([e.company, e.location], " - ")),
        DateLine(JoinNonEmpty([e.startDate, e.endDate], " - ")) ]
      + Bullets(NonBlankParts(e.description))
  }

  function Bullets(lines: seq<string>): (r: seq<Block>)
    ensures |r| == |lines|
    ensures forall i :: 0 <= i < |r| ==> r[i] == Bullet(lines[i])
  {
    seq(|lines|, i requires 0 <= i < |lines| => Bullet(lines[i]))
  }

  function ProjectEntry(p: Project, index: nat): (r: seq<Block>)
    ensures r == [] <==> SkipsProject(p)
  {
    if SkipsProject(p) then []
    else
      [EntryTitle(OrDefault(p.name, "Project Name"), Spacing(index))]
      + (if !IsBlank(p.link) then [Link(p.link, NormalizeLink(p.link))] else [])
      + (if !IsBlank(p.description) then [Body(p.description)] else [])
  }

  // ---------------------------------------------------------------------
  // Links

  /** `link.replace(/^https?:\/\//, '')`: one leading scheme removed. */
  function StripScheme(link: string): (r: string)
    ensures StartsWith(link, "https://") ==> r == link[8..]
    ensures StartsWith(link, "http://") ==> r == link[7..]
    ensures !StartsWith(link, "http://") && !StartsWith(link, "https://") ==> r == link
  {
    if StartsWith(link, "https://") then
      assert link[4] == "https://"[4] != "http://"[4];
      link[8..]
    else if StartsWith(link, "http://") then link[7..]
    else link
  }

  /** The hyperlink target: always `https://` followed by the link without
      its own scheme. */
  function NormalizeLink(link: string): (url: string)
    ensures StartsWith(url, "https://")
    ensures StartsWith(link, "https://") ==> url == link
    ensures StartsWith(link, "http://") ==> url == "https://" + link[7..]
    ensures !StartsWith(link, "http://") && !StartsWith(link, "https://") ==> url == "https://" + link
  {
    "https://" + StripScheme(link)
  }

  /** Normalising a target again leaves it unchanged. */
  lemma NormalizeLinkIdempotent(link: string)
    ensures NormalizeLink(NormalizeLink(link)) == NormalizeLink(link)
  {
    var url := NormalizeLink(link);
    assert StartsWith(url, "https://");
  }

  // ---------------------------------------------------------------------
  // Skills

  /** `${name}${years > 0 ? ` (${years} ${years === 1 ? unit : units})` : ''}`,
      with the short units of the table and the long ones of the line. */
  function SkillLabel(s: Skill, short: bool): (shown: string)
    ensures StartsWith(shown, s.name)
    ensures s.years <= 0 ==> shown == s.name
    ensures s.years > 0 ==>
      shown == s.name + " (" + NatToString(s.years) + " " + (if s.years == 1 then (if short then "yr" else "year")
                                                            else (if short then "yrs" else "years")) + ")"
  {
    if s.years > 0 then
      var unit := if s.years == 1 then (if short then "yr" else "year") else (if short then "yrs" else "years");
      s.name + " (" + NatToString(s.years) + " " + unit + ")"
    else s.name
  }

  /** Two labels of the same skill name differ whenever the years shown
      differ: the label determines the number of years it reports. */
  lemma SkillLabelShowsYears(name: string, y1: int, y2: int, short: bool, id1: string, id2: string)
    requires y1 > 0 && y2 > 0
    requires SkillLabel(Skill(id1, name, y1), short) == SkillLabel(Skill(id2, name, y2), short)
    ensures y1 == y2
  {
    var a, b := NatToString(y1), NatToString(y2);
    var u1 := if y1 == 1 then (if short then "yr" else "year") else (if short then "yrs" else "years");
    var u2 := if y2 == 1 then (if short then "yr" else "year") else (if short then "yrs" else "years");
    var rest1, rest2 := a + " " + u1 + ")", b + " " + u2 + ")";
    assert SkillLabel(Skill(id1, name, y1), short) == name + " (" + a + " " + u1 + ")";
    assert name + " (" + a + " " + u1 + ")" == name + " (" + rest1;
    assert SkillLabel(Skill(id2, name, y2), short) == name + " (" + b + " " + u2 + ")";
    assert name + " (" + b + " " + u2 + ")" == name + " (" + rest2;
    assert rest1 == (name + " (" + rest1)[|name| + 2..];
    assert rest1 == rest2;
    // a space follows the digits, so neither number can be a proper
    // prefix of the other
    assert |a| == |b|;
    assert a == rest1[..|a|] && b == rest2[..|b|];
    NatToStringInjective(y1, y2);
  }

  /** `skills.filter(s => s.name && s.name.trim())`. */
  function ValidSkills(skills: seq<Skill>): (r: seq<Skill>)
    ensures |r| <= |skills|
    ensures forall i :: 0 <= i < |r| ==> !IsBlank(r[i].name) && r[i] in skills
    ensures forall i :: 0 <= i < |skills| && !IsBlank(skills[i].name) ==> skills[i] in r
    ensures r == [] <==> forall i :: 0 <= i < |skills| ==> IsBlank(skills[i].name)
  {
    if |skills| == 0 then []
    else (if IsBlank(skills[0].name) then [] else [skills[0]]) + ValidSkills(skills[1..])
  }

  const ChunkSize: nat := 3

  /** `for (i = 0; i < n; i += 3) chunks.push(s.slice(i, i + 3))`:
      consecutive slices of three, of which only the last may be shorter. */
  function Chunks<T>(s: seq<T>): (r: seq<seq<T>>)
    ensures Flatten(r) == s
    ensures forall i :: 0 <= i < |r| ==> 0 < |r[i]| <= ChunkSize
    ensures forall i :: 0 <= i < |r| - 1 ==> |r[i]| == ChunkSize
    ensures |r| == (|s| + ChunkSize - 1) / ChunkSize
    decreases |s|
  {
    if |s| == 0 then []
    else if |s| <= ChunkSize then
      assert Flatten([s]) == s + Flatten([s][1..]);
      [s]
    else
      var rest := Chunks(s[ChunkSize..]);
      assert ([s[..ChunkSize]] + rest)[1..] == rest;
      [s[..ChunkSize]] + rest
  }

  /** Chunk `i` holds the items from `3 * i` on: three of them, or what is
      left at the end. */
  lemma {:induction false} ChunksAt<T>(s: seq<T>)
    ensures forall i :: 0 <= i < |Chunks(s)| ==>
      |Chunks(s)[i]| == if |s| - ChunkSize * i < ChunkSize then |s| - ChunkSize * i else ChunkSize
    ensures forall i, k :: 0 <= i < |Chunks(s)| && 0 <= k < |Chunks(s)[i]| ==> Chunks(s)[i][k] == s[ChunkSize * i + k]
    decreases |s|
  {
    if |s| > ChunkSize {
      var rest := Chunks(s[ChunkSize..]);
      ChunksAt(s[ChunkSize..]);
      var r := Chunks(s);
      assert r == [s[..ChunkSize]] + rest;
      forall i | 1 <= i < |r|
        ensures |r[i]| == if |s| - ChunkSize * i < ChunkSize then |s| - ChunkSize * i else ChunkSize
        ensures forall k :: 0 <= k < |r[i]| ==> r[i][k] == s[ChunkSize * i + k]
      {
        assert r[i] == rest[i - 1];
      }
    }
  }

  function Flatten<T>(rows: seq<seq<T>>): seq<T> {
    if |rows| == 0 then [] else rows[0] + Flatten(rows[1..])
  }

  /** A table row: the labels of one chunk, then empty cells up to three. */
  function PadRow(cells: seq<string>): (row: seq<string>)
    requires |cells| <= ChunkSize
    ensures |row| == ChunkSize
    ensures row[..|cells|] == cells
    ensures forall k :: |cells| <= k < ChunkSize ==> row[k] == ""
  {
    cells + seq(ChunkSize - |cells|, _ => "")
  }

  function Labels(skills: seq<Skill>, short: bool): (r: seq<string>)
    ensures |r| == |skills|
    ensures forall i :: 0 <= i < |r| ==> r[i] == SkillLabel(skills[i], short)
  {
    seq(|skills|, i requires 0 <= i < |skills| => SkillLabel(skills[i], short))
  }

  /** The skills table of the modern template: rows of exactly three cells
      holding the labels in order. Cell `k` of row `i` shows skill
      `3 * i + k`, or is empty past the last skill. */
  function SkillRows(skills: seq<Skill>): (rows: seq<seq<string>>)
    ensures forall i :: 0 <= i < |rows| ==> |rows[i]| == ChunkSize
    ensures |rows| == (|skills| + ChunkSize - 1) / ChunkSize
    ensures forall i, k :: 0 <= i < |rows| && 0 <= k < ChunkSize ==>
      rows[i][k] == if ChunkSize * i + k < |skills| then SkillLabel(skills[ChunkSize * i + k], true) else ""
  {
    var chunks := Chunks(Labels(skills, true));
    ChunksAt(Labels(skills, true));
    seq(|chunks|, i requires 0 <= i < |chunks| => PadRow(chunks[i]))
  }

  /** The skills paragraph or table; none when no skill has a name. */
  function SkillsContent(skills: seq<Skill>, t: Template): (r: Option<Block>)
    ensures r.None? <==> ValidSkills(skills) == []
  {
    var valid := ValidSkills(skills);
    if |valid| == 0 then None
    else if t == Modern then Some(SkillsTable(SkillRows(valid)))
    else Some(Body(Join(Labels(valid, false), ", ")))
  }

  // ---------------------------------------------------------------------
  // The whole document

  function ContactLine(p: PersonalInfo): string {
    JoinNonEmpty([p.email, p.phone, p.website, p.location], " | ")
  }

  function EducationSection(edu: seq<Education>): seq<Block> {
    CreateSection("Education", AllPresent(FlatMapIndexed(edu, EducationEntry, 0)))
  }

  function ExperienceSection(exp: seq<Experience>): seq<Block> {
    CreateSection("Professional Experience", AllPresent(FlatMapIndexed(exp, ExperienceEntry, 0)))
  }

  function ProjectSection(title: string, projects: seq<Project>): seq<Block> {
    CreateSection(title, AllPresent(FlatMapIndexed(projects, ProjectEntry, 0)))
  }

  function CertificationNames(certs: seq<Certification>): (names: seq<string>)
    ensures |names| == |certs|
    ensures forall i :: 0 <= i < |certs| ==> names[i] == certs[i].name
  {
    seq(|certs|, i requires 0 <= i < |certs| => certs[i].name)
  }

  function CertificationSection(certs: seq<Certification>): seq<Block> {
    CreateSection("Certifications", AllPresent(Bullets(NonBlankParts(CertificationNames(certs)))))
  }

  function SummarySection(p: PersonalInfo): (r: seq<Block>)
    ensures p.summary != "" ==> r == [Heading("Summary"), Body(p.summary)]
    ensures p.summary == "" ==> r == []
  {
    if p.summary != "" then CreateSection("Summary", [Some(Body(p.summary))]) else []
  }

  /** The document's blocks in the order the exporter lays out its sections. */
  function Assemble(header: seq<Block>, summary: seq<Block>, education: seq<Block>, certifications: seq<Block>,
                    experience: seq<Block>, skills: seq<Block>, projects: seq<Block>, architecture: seq<Block>): (r: seq<Block>)
    ensures |r| == |header| + |summary| + |education| + |certifications| + |experience| + |skills| + |projects| + |architecture|
    ensures r[..|header|] == header
    ensures r[|header|..|header| + |summary|] == summary
  {
    header + summary + education + certifications + experience + skills + projects + architecture
  }

  function SkillsSection(skills: seq<Skill>, t: Template): seq<Block> {
    var content := SkillsContent(skills, t);
    CreateSection("Technical Skills", if content.Some? then [content] else [])
  }

  /** `handleDownloadDocx`'s paragraphs: the name (or "Your Name") and the
      contact line always open the document, and the summary follows them
      when there is one. */
  function DocumentBlocks(d: ResumeData, t: Template): (r: seq<Block>)
    ensures |r| >= 2
    ensures r[0] == HeaderName(if d.personalInfo.name == "" then "Your Name" else d.personalInfo.name)
    ensures r[1] == HeaderContact(JoinNonEmpty([d.personalInfo.email, d.personalInfo.phone,
                                                d.personalInfo.website, d.personalInfo.location], " | "))
    ensures d.personalInfo.summary != "" ==> |r| >= 4 && r[2] == Heading("Summary") && r[3] == Body(d.personalInfo.summary)
  {
    var header := [HeaderName(OrDefault(d.personalInfo.name, "Your Name")), HeaderContact(ContactLine(d.personalInfo))];
    var summary := SummarySection(d.personalInfo);
    var r := Assemble(header, summary,
                      EducationSection(d.education),
                      CertificationSection(d.certifications),
                      ExperienceSection(d.experience),
                      SkillsSection(d.skills, t),
                      ProjectSection("Projects", d.projects),
                      ProjectSection("KEY ARCHITECTURAL PROJECTS", d.keyArchitecturalProjects));
    assert r[0] == r[..2][0] && r[1] == r[..2][1];
    assert d.personalInfo.summary != "" ==> |r| >= 4 && r[2] == summary[0] && r[3] == summary[1] by {
      if d.personalInfo.summary != "" {
        assert r[2..4] == summary;
        assert r[2] == r[2..4][0] && r[3] == r[2..4][1];
      }
    }
    r
  }

  /** Nothing in the resume would reach the document beyond its header. */
  predicate NothingToExport(d: ResumeData) {
    && d.personalInfo.summary == ""
    && (forall i :: 0 <= i < |d.education| ==> SkipsEducation(d.education[i]))
    && (forall i :: 0 <= i < |d.certifications| ==> IsBlank(d.certifications[i].name))
    && (forall i :: 0 <= i < |d.experience| ==> SkipsExperience(d.experience[i]))
    && (forall i :: 0 <= i < |d.skills| ==> IsBlank(d.skills[i].name))
    && (forall i :: 0 <= i < |d.projects| ==> SkipsProject(d.projects[i]))
    && (forall i :: 0 <= i < |d.keyArchitecturalProjects| ==> SkipsProject(d.keyArchitecturalProjects[i]))
  }

  /** The document is the two header paragraphs alone exactly when every
      section is empty or skipped. */
  lemma HeaderOnlyIffNothingToExport(d: ResumeData, t: Template)
    ensures |DocumentBlocks(d, t)| == 2 <==> NothingToExport(d)
  {
    EducationOmittedIffAllSkipped(d.education);
    ExperienceOmittedIffAllSkipped(d.experience);
    ProjectsOmittedIffAllSkipped("Projects", d.projects);
    ProjectsOmittedIffAllSkipped("KEY ARCHITECTURAL PROJECTS", d.keyArchitecturalProjects);
    CertificationsOmittedIffAllBlank(d.certifications);
  }

  /** The certifications section is left out exactly when every name is
      blank. */
  lemma CertificationsOmittedIffAllBlank(certs: seq<Certification>)
    ensures CertificationSection(certs) == [] <==> forall i :: 0 <= i < |certs| ==> IsBlank(certs[i].name)
  {
    var names := CertificationNames(certs);
    var kept := NonBlankParts(names);
    CreateSectionOfBlocks("Certifications", Bullets(kept));
    if kept != [] {
      assert kept[0] in names;
    }
  }

  lemma EducationOmittedIffAllSkipped(edu: seq<Education>)
    ensures EducationSection(edu) == [] <==> forall i :: 0 <= i < |edu| ==> SkipsEducation(edu[i])
  {
    var blocks := FlatMapIndexed(edu, EducationEntry, 0);
    CreateSectionOfBlocks("Education", blocks);
    assert blocks == [] <==> forall i :: 0 <= i < |edu| ==> EducationEntry(edu[i], i) == [];
  }

  /** The experience section is left out exactly when every entry is
      skipped. */
  lemma ExperienceOmittedIffAllSkipped(exp: seq<Experience>)
    ensures ExperienceSection(exp) == [] <==> forall i :: 0 <= i < |exp| ==> SkipsExperience(exp[i])
  {
    var blocks := FlatMapIndexed(exp, ExperienceEntry, 0);
    CreateSectionOfBlocks("Professional Experience", blocks);
    assert blocks == [] <==> forall i :: 0 <= i < |exp| ==> ExperienceEntry(exp[i], i) == [];
  }

  /** Either project section is left out exactly when every entry is
      skipped. */
  lemma ProjectsOmittedIffAllSkipped(title: string, projects: seq<Project>)
    ensures ProjectSection(title, projects) == [] <==> forall i :: 0 <= i < |projects| ==> SkipsProject(projects[i])
  {
    var blocks := FlatMapIndexed(projects, ProjectEntry, 0);
    CreateSectionOfBlocks(title, blocks);
    assert blocks == [] <==> forall i :: 0 <= i < |projects| ==> ProjectEntry(projects[i], i) == [];
  }

  /** An entry fresh from an Add button adds nothing to the document: its
      list's section comes out as it did before the entry was added. */
  lemma NewEntryNotExported(d: ResumeData, s: ListSection, id: string, t: Template)
    ensures DocumentBlocks(Form.AddArrayItem(d, s, Form.NewEntry(s, id)), t) == DocumentBlocks(d, t)
  {
    var e := Form.NewEntry(s, id);
    match s
    case ExperienceList => SkippedExperienceNotExported(d, e.experience, t);
    case EducationList => SkippedEducationNotExported(d, e.education, t);
    case CertificationList => BlankCertificationNotExported(d, e.certification, t);
    case SkillList => BlankSkillNotExported(d, e.skill, t);
    case ProjectList => SkippedProjectNotExported(d, e.project, t);
    case KeyArchitecturalProjectList => SkippedArchitecturalProjectNotExported(d, e.project, t);
  }

  /** Appending a job the exporter skips leaves the document unchanged. */
  lemma SkippedExperienceNotExported(d: ResumeData, x: Experience, t: Template)
    requires SkipsExperience(x)
    ensures DocumentBlocks(d.(experience := d.experience + [x]), t) == DocumentBlocks(d, t)
  {
    FlatMapAppendSkipped(d.experience, x, ExperienceEntry);
  }

  /** Appending a degree the exporter skips leaves the document unchanged. */
  lemma SkippedEducationNotExported(d: ResumeData, x: Education, t: Template)
    requires SkipsEducation(x)
    ensures DocumentBlocks(d.(education := d.education + [x]), t) == DocumentBlocks(d, t)
  {
    FlatMapAppendSkipped(d.education, x, EducationEntry);
  }

  /** Appending a certification with a blank name leaves the document
      unchanged. */
  lemma BlankCertificationNotExported(d: ResumeData, x: Certification, t: Template)
    requires IsBlank(x.name)
    ensures DocumentBlocks(d.(certifications := d.certifications + [x]), t) == DocumentBlocks(d, t)
  {
    var certs' := d.certifications + [x];
    var names := CertificationNames(d.certifications);
    assert CertificationNames(certs') == names + [x.name];
    NonBlankPartsSnoc(names, x.name);
    assert NonBlankParts(CertificationNames(certs')) == NonBlankParts(names);
    assert CertificationSection(certs') == CertificationSection(d.certifications);
  }

  /** Appending a skill with a blank name leaves the document unchanged,
      whichever template lays the skills out. */
  lemma BlankSkillNotExported(d: ResumeData, x: Skill, t: Template)
    requires IsBlank(x.name)
    ensures DocumentBlocks(d.(skills := d.skills + [x]), t) == DocumentBlocks(d, t)
  {
    ValidSkillsSnoc(d.skills, x);
    assert ValidSkills(d.skills + [x]) == ValidSkills(d.skills);
    assert SkillsContent(d.skills + [x], t) == SkillsContent(d.skills, t);
    assert SkillsSection(d.skills + [x], t) == SkillsSection(d.skills, t);
  }

  /** Appending a project the exporter skips leaves the document unchanged. */
  lemma SkippedProjectNotExported(d: ResumeData, x: Project, t: Template)
    requires SkipsProject(x)
    ensures DocumentBlocks(d.(projects := d.projects + [x]), t) == DocumentBlocks(d, t)
  {
    FlatMapAppendSkipped(d.projects, x, ProjectEntry);
  }

  lemma SkippedArchitecturalProjectNotExported(d: ResumeData, x: Project, t: Template)
    requires SkipsProject(x)
    ensures DocumentBlocks(d.(keyArchitecturalProjects := d.keyArchitecturalProjects + [x]), t) == DocumentBlocks(d, t)
  {
    FlatMapAppendSkipped(d.keyArchitecturalProjects, x, ProjectEntry);
  }

  lemma {:induction false} FlatMapAppendSkipped<T>(s: seq<T>, x: T, entry: (T, nat) -> seq<Block>)
    requires entry(x, |s|) == []
    ensures FlatMapIndexed(s + [x], entry, 0) == FlatMapIndexed(s, entry, 0)
  {
    FlatMapAppendSkippedFrom(s, x, entry, 0);
  }

  lemma {:induction false} FlatMapAppendSkippedFrom<T>(s: seq<T>, x: T, entry: (T, nat) -> seq<Block>, start: nat)
    requires entry(x, start + |s|) == []
    ensures FlatMapIndexed(s + [x], entry, start) == FlatMapIndexed(s, entry, start)
    decreases |s|
  {
    if |s| == 0 {
      assert s + [x] == [x];
    } else {
      assert (s + [x])[1..] == s[1..] + [x];
      FlatMapAppendSkippedFrom(s[1..], x, entry, start + 1);
    }
  }

  /** Appending a skill appends it to the valid skills exactly when its
      name is not blank. */
  lemma {:induction false} ValidSkillsSnoc(skills: seq<Skill>, x: Skill)
    ensures ValidSkills(skills + [x]) == ValidSkills(skills) + (if IsBlank(x.name) then [] else [x])
    decreases |skills|
  {
    if |skills| == 0 {
      assert skills + [x] == [x];
    } else {
      assert (skills + [x])[1..] == skills[1..] + [x];
      ValidSkillsSnoc(skills[1..], x);
    }
  }
}

=== FILE: faults.dfy ===
/** What can go wrong between sending a request to the model provider and
    holding a post-processed object: the exceptions the service's `try`
    blocks catch. */
module Faults {

  datatype Fault =
    /** The provider's client object was not created. */
    | NoClient
    /** The SDK call rejected (network, HTTP status, SDK misuse). */
    | SdkError(message: string)
    /** The response text holds no `{ ... }` span. */
    | NoJson
    /** `JSON.parse` rejected the span. */
    | ParseError(message: string)
    /** A property read on null or a `.map` call on a non-array. */
    | TypeError
}

=== FILE: form.dfy ===
/** `components/ResumeForm.tsx`: the edits the form applies to the
    document, as pure functions from the old document to the new one. */
module Form {
  import opened Wrappers
  import opened Types
  import opened Sections
  import ParseInt

  // ---------------------------------------------------------------------
  // Index-addressed sequence edits

  /** `list.map((item, i) => i === index ? edit(item) : item)`. */
  function UpdateAt<T>(s: seq<T>, index: int, edit: T -> T): (r: seq<T>)
    ensures |r| == |s|
    ensures forall i :: 0 <= i < |s| && i != index ==> r[i] == s[i]
    ensures 0 <= index < |s| ==> r[index] == edit(s[index])
  {
    seq(|s|, i requires 0 <= i < |s| => if i == index then edit(s[i]) else s[i])
  }

  /** `list.filter((_, i) => i !== index)`, walking the list with the index
      counting down to the element to drop. Exactly that element goes; an
      index outside the list drops nothing. */
  function RemoveAt<T>(s: seq<T>, index: int): (r: seq<T>)
    ensures 0 <= index < |s| ==> r == s[..index] + s[index + 1..]
    ensures !(0 <= index < |s|) ==> r == s
    decreases |s|
  {
    if |s| == 0 then []
    else (if index == 0 then [] else [s[0]]) + RemoveAt(s[1..], index - 1)
  }

  /** The map form of `UpdateAt` is a single-element update. */
  lemma UpdateAtIsUpdate<T>(s: seq<T>, index: int, edit: T -> T)
    ensures 0 <= index < |s| ==> UpdateAt(s, index, edit) == s[index := edit(s[index])]
    ensures !(0 <= index < |s|) ==> UpdateAt(s, index, edit) == s
  {
  }

  // ---------------------------------------------------------------------
  // Personal information

  /** The `name` attributes of the six personal-information inputs. */
  datatype PersonalField = NameField | EmailField | PhoneField | WebsiteField | LocationField | SummaryField

  function PersonalValue(p: PersonalInfo, f: PersonalField): string {
    match f
    case NameField => p.name
    case EmailField => p.email
    case PhoneField => p.phone
    case WebsiteField => p.website
    case LocationField => p.location
    case SummaryField => p.summary
  }

  /** `handlePersonalInfoChange`: the named field takes the new value;
      every other field and every list stay as they were. */
  function HandlePersonalInfoChange(d: ResumeData, f: PersonalField, value: string): (r: ResumeData)
    ensures PersonalValue(r.personalInfo, f) == value
    ensures forall g :: g != f ==> PersonalValue(r.personalInfo, g) == PersonalValue(d.personalInfo, g)
    ensures r.(personalInfo := d.personalInfo) == d
  {
    var p := d.personalInfo;
    var p' := match f
      case NameField => p.(name := value)
      case EmailField => p.(email := value)
      case PhoneField => p.(phone := value)
      case WebsiteField => p.(website := value)
      case LocationField => p.(location := value)
      case SummaryField => p.(summary := value);
    d.(personalInfo := p')
  }

  // ---------------------------------------------------------------------
  // Entry fields the form edits

  datatype ExperienceField = JobTitle | Company | ExperienceLocation | StartDate | EndDate
  datatype EducationField = Degree | Institution | EducationLocation | GradDate
  datatype ProjectField = ProjectName | ProjectLink | ProjectDescription
  datatype SkillField = SkillName | SkillYears

  function ExperienceValue(e: Experience, f: ExperienceField): string {
    match f
    case JobTitle => e.jobTitle
    case Company => e.company
    case ExperienceLocation => e.location
    case StartDate => e.startDate
    case EndDate => e.endDate
  }

  function SetExperience(e: Experience, f: ExperienceField, value: string): (r: Experience)
    ensures ExperienceValue(r, f) == value
    ensures forall g :: g != f ==> ExperienceValue(r, g) == ExperienceValue(e, g)
    ensures r.id == e.id && r.description == e.description && r.keyTech == e.keyTech
  {
    match f
    case JobTitle => e.(jobTitle := value)
    case Company => e.(company := value)
    case ExperienceLocation => e.(location := value)
    case StartDate => e.(startDate := value)
    case EndDate => e.(endDate := value)
  }

  function EducationValue(e: Education, f: EducationField): string {
    match f
    case Degree => e.degree
    case Institution => e.institution
    case EducationLocation => e.location
    case GradDate => e.gradDate
  }

  function SetEducation(e: Education, f: EducationField, value: string): (r: Education)
    ensures EducationValue(r, f) == value
    ensures forall g :: g != f ==> EducationValue(r, g) == EducationValue(e, g)
    ensures r.id == e.id
  {
    match f
    case Degree => e.(degree := value)
    case Institution => e.(institution := value)
    case EducationLocation => e.(location := value)
    case GradDate => e.(gradDate := value)
  }

  function ProjectValue(p: Project, f: ProjectField): string {
    match f
    case ProjectName => p.name
    case ProjectLink => p.link
    case ProjectDescription => p.description
  }

  function SetProject(p: Project, f: ProjectField, value: string): (r: Project)
    ensures ProjectValue(r, f) == value
    ensures forall g :: g != f ==> ProjectValue(r, g) == ProjectValue(p, g)
    ensures r.id == p.id
  {
    match f
    case ProjectName => p.(name := value)
    case ProjectLink => p.(link := value)
    case ProjectDescription => p.(description := value)
  }

  /** The `years` input goes through `parseInt(value) || 0`; the name is
      stored as typed. */
  function SetSkill(s: Skill, f: SkillField, value: string): (r: Skill)
    ensures r.id == s.id
    ensures f == SkillName ==> r.name == value && r.years == s.years
    ensures f == SkillYears ==> r.name == s.name && r.years == ParseInt.ParseIntOrZero(value)
  {
    match f
    case SkillName => s.(name := value)
    case SkillYears => s.(years := ParseInt.ParseIntOrZero(value))
  }

  /** One input of one list entry: the list and the input's `name`. */
  datatype FieldEdit =
    | ExperienceEdit(experienceField: ExperienceField)
    | EducationEdit(educationField: EducationField)
    | CertificationNameEdit
    | SkillEdit(skillField: SkillField)
    | ProjectEdit(projectField: ProjectField)
    | KeyArchitecturalProjectEdit(keyProjectField: ProjectField)

  function EditedList(edit: FieldEdit): ListSection {
    match edit
    case ExperienceEdit(_) => ExperienceList
    case EducationEdit(_) => EducationList
    case CertificationNameEdit => CertificationList
    case SkillEdit(_) => SkillList
    case ProjectEdit(_) => ProjectList
    case KeyArchitecturalProjectEdit(_) => KeyArchitecturalProjectList
  }

  // ---------------------------------------------------------------------
  // A uniform view of the six lists

  /** An entry of any list; both project lists hold `ProjectEntry`. */
  datatype Entry =
    | ExperienceEntry(experience: Experience)
    | EducationEntry(education: Education)
    | CertificationEntry(certification: Certification)
    | SkillEntry(skill: Skill)
    | ProjectEntry(project: Project)

  function AsExperience(x: Experience): Entry { ExperienceEntry(x) }
  function AsEducation(x: Education): Entry { EducationEntry(x) }
  function AsCertification(x: Certification): Entry { CertificationEntry(x) }
  function AsSkill(x: Skill): Entry { SkillEntry(x) }
  function AsProject(x: Project): Entry { ProjectEntry(x) }

  /** A list of one entry kind viewed as entries. */
  function Wrap<T>(s: seq<T>, wrap: T -> Entry): (r: seq<Entry>)
    ensures |r| == |s|
    ensures forall i :: 0 <= i < |s| ==> r[i] == wrap(s[i])
  {
    seq(|s|, i requires 0 <= i < |s| => wrap(s[i]))
  }

  /** Wrapping commutes with removing an item. */
  lemma WrapRemoveAt<T>(s: seq<T>, index: int, wrap: T -> Entry)
    ensures 0 <= index < |s| ==> Wrap(RemoveAt(s, index), wrap) == Wrap(s, wrap)[..index] + Wrap(s, wrap)[index + 1..]
  {
  }

  /** Wrapping commutes with updating one item. */
  lemma WrapUpdateAt<T>(s: seq<T>, index: int, edit: T -> T, wrap: T -> Entry)
    ensures |Wrap(UpdateAt(s, index, edit), wrap)| == |s|
    ensures forall i :: 0 <= i < |s| && i != index ==> Wrap(UpdateAt(s, index, edit), wrap)[i] == Wrap(s, wrap)[i]
    ensures 0 <= index < |s| ==> Wrap(UpdateAt(s, index, edit), wrap)[index] == wrap(edit(s[index]))
  {
  }

  /** The entries of one list, in order. */
  function EntriesOf(d: ResumeData, s: ListSection): seq<Entry> {
    match s
    case ExperienceList => Wrap(d.experience, AsExperience)
    case EducationList => Wrap(d.education, AsEducation)
    case CertificationList => Wrap(d.certifications, AsCertification)
    case SkillList => Wrap(d.skills, AsSkill)
    case ProjectList => Wrap(d.projects, AsProject)
    case KeyArchitecturalProjectList => Wrap(d.keyArchitecturalProjects, AsProject)
  }

  /** The `id` every entity carries. */
  function EntryId(e: Entry): string {
    match e
    case ExperienceEntry(x) => x.id
    case EducationEntry(x) => x.id
    case CertificationEntry(x) => x.id
    case SkillEntry(x) => x.id
    case ProjectEntry(x) => x.id
  }

  /** The entry kind a list holds. */
  predicate Fits(s: ListSection, e: Entry) {
    match s
    case ExperienceList => e.ExperienceEntry?
    case EducationList => e.EducationEntry?
    case CertificationList => e.CertificationEntry?
    case SkillList => e.SkillEntry?
    case ProjectList => e.ProjectEntry?
    case KeyArchitecturalProjectList => e.ProjectEntry?
  }

  /** Two documents agree on their contact block and on every list but `s`. */
  predicate SameOutside(d1: ResumeData, d2: ResumeData, s: ListSection) {
    && d1.personalInfo == d2.personalInfo
    && (s != ExperienceList ==> d1.experience == d2.experience)
    && (s != EducationList ==> d1.education == d2.education)
    && (s != CertificationList ==> d1.certifications == d2.certifications)
    && (s != SkillList ==> d1.skills == d2.skills)
    && (s != ProjectList ==> d1.projects == d2.projects)
    && (s != KeyArchitecturalProjectList ==> d1.keyArchitecturalProjects == d2.keyArchitecturalProjects)
  }

  /** The entry an edit of `edit` turns `e` into. */
  function ApplyEdit(e: Entry, edit: FieldEdit, value: string): Entry {
    match (e, edit)
    case (ExperienceEntry(x), ExperienceEdit(f)) => ExperienceEntry(SetExperience(x, f, value))
    case (EducationEntry(x), EducationEdit(f)) => EducationEntry(SetEducation(x, f, value))
    case (CertificationEntry(x), CertificationNameEdit) => CertificationEntry(x.(name := value))
    case (SkillEntry(x), SkillEdit(f)) => SkillEntry(SetSkill(x, f, value))
    case (ProjectEntry(x), ProjectEdit(f)) => ProjectEntry(SetProject(x, f, value))
    case (ProjectEntry(x), KeyArchitecturalProjectEdit(f)) => ProjectEntry(SetProject(x, f, value))
    case _ => e
  }

  /** `handleArrayChange`: only entry `index` of the edited list changes, and
      only in the edited field; the list keeps its length, the other lists
      and the contact block are untouched, and an index outside the list
      changes nothing. */
  function HandleArrayChange(d: ResumeData, edit: FieldEdit, index: int, value: string): (r: ResumeData)
    ensures SameOutside(r, d, EditedList(edit))
    ensures |EntriesOf(r, EditedList(edit))| == |EntriesOf(d, EditedList(edit))|
    ensures forall i :: 0 <= i < |EntriesOf(d, EditedList(edit))| && i != index ==>
      EntriesOf(r, EditedList(edit))[i] == EntriesOf(d, EditedList(edit))[i]
    ensures 0 <= index < |EntriesOf(d, EditedList(edit))| ==>
      EntriesOf(r, EditedList(edit))[index] == ApplyEdit(EntriesOf(d, EditedList(edit))[index], edit, value)
  {
    match edit
    case ExperienceEdit(f) =>
      var g := x => SetExperience(x, f, value);
      WrapUpdateAt(d.experience, index, g, AsExperience);
      var r := d.(experience := UpdateAt(d.experience, index, g));
      assert EditedList(edit) == ExperienceList && EntriesOf(r, ExperienceList) == Wrap(r.experience, AsExperience);
      r
    case EducationEdit(f) =>
      var g := x => SetEducation(x, f, value);
      WrapUpdateAt(d.education, index, g, AsEducation);
      var r := d.(education := UpdateAt(d.education, index, g));
      assert EditedList(edit) == EducationList && EntriesOf(r, EducationList) == Wrap(r.education, AsEducation);
      r
    case CertificationNameEdit =>
      var g := (x: Certification) => x.(name := value);
      WrapUpdateAt(d.certifications, index, g, AsCertification);
      var r := d.(certifications := UpdateAt(d.certifications, index, g));
      assert EditedList(edit) == CertificationList && EntriesOf(r, CertificationList) == Wrap(r.certifications, AsCertification);
      r
    case SkillEdit(f) =>
      var g := x => SetSkill(x, f, value);
      WrapUpdateAt(d.skills, index, g, AsSkill);
      var r := d.(skills := UpdateAt(d.skills, index, g));
      assert EditedList(edit) == SkillList && EntriesOf(r, SkillList) == Wrap(r.skills, AsSkill);
      r
    case ProjectEdit(f) =>
      var g := x => SetProject(x, f, value);
      WrapUpdateAt(d.projects, index, g, AsProject);
      var r := d.(projects := UpdateAt(d.projects, index, g));
      assert EditedList(edit) == ProjectList && EntriesOf(r, ProjectList) == Wrap(r.projects, AsProject);
      r
    case KeyArchitecturalProjectEdit(f) =>
      var g := x => SetProject(x, f, value);
      WrapUpdateAt(d.keyArchitecturalProjects, index, g, AsProject);
      var r := d.(keyArchitecturalProjects := UpdateAt(d.keyArchitecturalProjects, index, g));
      assert EditedList(edit) == KeyArchitecturalProjectList && EntriesOf(r, KeyArchitecturalProjectList) == Wrap(r.keyArchitecturalProjects, AsProject);
      r
  }

  /** `addArrayItem`: the new entry goes at the end of its list; nothing
      else changes. */
  function AddArrayItem(d: ResumeData, s: ListSection, item: Entry): (r: ResumeData)
    requires Fits(s, item)
    ensures EntriesOf(r, s) == EntriesOf(d, s) + [item]
    ensures SameOutside(r, d, s)
  {
    match s
    case ExperienceList => d.(experience := d.experience + [item.experience])
    case EducationList => d.(education := d.education + [item.education])
    case CertificationList => d.(certifications := d.certifications + [item.certification])
    case SkillList => d.(skills := d.skills + [item.skill])
    case ProjectList => d.(projects := d.projects + [item.project])
    case KeyArchitecturalProjectList => d.(keyArchitecturalProjects := d.keyArchitecturalProjects + [item.project])
  }

  /** `removeArrayItem`: exactly the entry at `index` leaves its list, the
      rest keep their order, and an index outside the list changes nothing. */
  function RemoveArrayItem(d: ResumeData, s: ListSection, index: int): (r: ResumeData)
    ensures 0 <= index < |EntriesOf(d, s)| ==>
      EntriesOf(r, s) == EntriesOf(d, s)[..index] + EntriesOf(d, s)[index + 1..]
    ensures !(0 <= index < |EntriesOf(d, s)|) ==> r == d
    ensures SameOutside(r, d, s)
  {
    match s
    case ExperienceList =>
      WrapRemoveAt(d.experience, index, AsExperience);
      d.(experience := RemoveAt(d.experience, index))
    case EducationList =>
      WrapRemoveAt(d.education, index, AsEducation);
      d.(education := RemoveAt(d.education, index))
    case CertificationList =>
      WrapRemoveAt(d.certifications, index, AsCertification);
      d.(certifications := RemoveAt(d.certifications, index))
    case SkillList =>
      WrapRemoveAt(d.skills, index, AsSkill);
      d.(skills := RemoveAt(d.skills, index))
    case ProjectList =>
      WrapRemoveAt(d.projects, index, AsProject);
      d.(projects := RemoveAt(d.projects, index))
    case KeyArchitecturalProjectList =>
      WrapRemoveAt(d.keyArchitecturalProjects, index, AsProject);
      d.(keyArchitecturalProjects := RemoveAt(d.keyArchitecturalProjects, index))
  }

  // ---------------------------------------------------------------------
  // Experience bullets

  /** `d` and `r` differ at most in the bullets of experience `index`. */
  predicate OnlyBulletsOf(r: ResumeData, d: ResumeData, index: nat)
    requires index < |d.experience|
  {
    && |r.experience| == |d.experience|
    && (forall i :: 0 <= i < |d.experience| && i != index ==> r.experience[i] == d.experience[i])
    && r.experience[index].(description := d.experience[index].description) == d.experience[index]
    && r.(experience := d.experience) == d
  }

  /** `handleDescriptionChange`: bullet `descIndex` of experience `index`
      takes the new text; every other bullet and field stays. */
  function HandleDescriptionChange(d: ResumeData, index: nat, descIndex: nat, value: string): (r: ResumeData)
    requires index < |d.experience| && descIndex < |d.experience[index].description|
    ensures OnlyBulletsOf(r, d, index)
    ensures r.experience[index].description == d.experience[index].description[descIndex := value]
  {
    var e := d.experience[index];
    d.(experience := d.experience[index := e.(description := e.description[descIndex := value])])
  }

  /** `addDescriptionPoint`: an empty bullet is appended. */
  function AddDescriptionPoint(d: ResumeData, index: nat): (r: ResumeData)
    requires index < |d.experience|
    ensures OnlyBulletsOf(r, d, index)
    ensures r.experience[index].description == d.experience[index].description + [""]
  {
    var e := d.experience[index];
    d.(experience := d.experience[index := e.(description := e.description + [""])])
  }

  /** `removeDescriptionPoint`: exactly bullet `descIndex` goes. */
  function RemoveDescriptionPoint(d: ResumeData, index: nat, descIndex: int): (r: ResumeData)
    requires index < |d.experience|
    ensures OnlyBulletsOf(r, d, index)
    ensures var b := d.experience[index].description;
      0 <= descIndex < |b| ==> r.experience[index].description == b[..descIndex] + b[descIndex + 1..]
    ensures var b := d.experience[index].description;
      !(0 <= descIndex < |b|) ==> r.experience[index].description == b
  {
    var e := d.experience[index];
    d.(experience := d.experience[index := e.(description := RemoveAt(e.description, descIndex))])
  }

  // ---------------------------------------------------------------------
  // The entries the Add buttons create

  /** The entry the list's Add button appends; `id` is the click time
      rendered as a string. */
  function NewEntry(s: ListSection, id: string): (e: Entry)
    ensures Fits(s, e)
    ensures EntryId(e) == id
    ensures e.ExperienceEntry? ==>
      && e.experience.jobTitle == "" && e.experience.company == "" && e.experience.location == ""
      && e.experience.startDate == "" && e.experience.endDate == ""
      && e.experience.description == [""] && e.experience.keyTech.None?
    ensures e.EducationEntry? ==>
      && e.education.degree == "" && e.education.institution == ""
      && e.education.location == "" && e.education.gradDate == ""
    ensures e.CertificationEntry? ==> e.certification.name == ""
    ensures e.SkillEntry? ==> e.skill.name == "" && e.skill.years == 0
    ensures e.ProjectEntry? ==> e.project.name == "" && e.project.description == "" && e.project.link == ""
  {
    match s
    case ExperienceList => ExperienceEntry(Experience(id, "", "", "", "", "", [""], None))
    case EducationList => EducationEntry(Education(id, "", "", "", ""))
    case CertificationList => CertificationEntry(Certification(id, ""))
    case SkillList => SkillEntry(Skill(id, "", 0))
    case ProjectList => ProjectEntry(Project(id, "", "", ""))
    case KeyArchitecturalProjectList => ProjectEntry(Project(id, "", "", ""))
  }

  // ---------------------------------------------------------------------
  // Add and remove undo each other

  /** Removing the entry just appended gives back the document. */
  lemma RemoveUndoesAdd(d: ResumeData, s: ListSection, item: Entry)
    requires Fits(s, item)
    ensures RemoveArrayItem(AddArrayItem(d, s, item), s, |EntriesOf(d, s)|) == d
  {
    var d' := AddArrayItem(d, s, item);
    var n := |EntriesOf(d, s)|;
    match s
    case ExperienceList => assert RemoveAt(d'.experience, n) == d.experience;
    case EducationList => assert RemoveAt(d'.education, n) == d.education;
    case CertificationList => assert RemoveAt(d'.certifications, n) == d.certifications;
    case SkillList => assert RemoveAt(d'.skills, n) == d.skills;
    case ProjectList => assert RemoveAt(d'.projects, n) == d.projects;
    case KeyArchitecturalProjectList => assert RemoveAt(d'.keyArchitecturalProjects, n) == d.keyArchitecturalProjects;
  }

  /** Removing the bullet just appended gives back the document. */
  lemma RemoveDescriptionPointUndoesAdd(d: ResumeData, index: nat)
    requires index < |d.experience|
    ensures RemoveDescriptionPoint(AddDescriptionPoint(d, index), index, |d.experience[index].description|) == d
  {
    var b := d.experience[index].description;
    assert (b + [""])[..|b|] + (b + [""])[|b| + 1..] == b;
  }
}

=== FILE: ids.dfy ===
/** The identifiers the parse path gives list entries:
    `generateId(prefix, index) = prefix + "-" + (index + 1)`. */
module Ids {
  import opened Text
  import opened Sections

  const ExperiencePrefix := "exp"
  const EducationPrefix := "edu"
  const CertificationPrefix := "cert"
  const SkillPrefix := "skill"
  const ProjectPrefix := "proj"
  const KeyArchitecturalProjectPrefix := "arch-proj"

  /** The id prefix the parse path uses for each list. */
  function PrefixOf(s: ListSection): string {
    match s
    case ExperienceList => ExperiencePrefix
    case EducationList => EducationPrefix
    case CertificationList => CertificationPrefix
    case SkillList => SkillPrefix
    case ProjectList => ProjectPrefix
    case KeyArchitecturalProjectList => KeyArchitecturalProjectPrefix
  }

  /** Each list has its own prefix. */
  lemma PrefixOfInjective(s1: ListSection, s2: ListSection)
    requires PrefixOf(s1) == PrefixOf(s2)
    ensures s1 == s2
  {
  }

  /** The id of the entry at zero-based position `index`, numbered from 1. */
  function GenerateId(prefix: string, index: nat): (id: string)
    ensures StartsWith(id, prefix + "-")
    ensures |id| > |prefix| + 1
  {
    prefix + "-" + NatToString(index + 1)
  }

  /** An id determines both its prefix and its position: the number after
      the last `-` holds no `-`, so it splits the id in exactly one way. Ids
      are therefore distinct within a list and across lists. */
  lemma {:induction false} GenerateIdInjective(p: string, i: nat, q: string, j: nat)
    requires GenerateId(p, i) == GenerateId(q, j)
    ensures p == q && i == j
  {
    var s := GenerateId(p, i);
    var d1 := NatToString(i + 1);
    var d2 := NatToString(j + 1);
    assert s == p + "-" + d1;
    assert s == q + "-" + d2;
    DashBeforeDigits(p, d1);
    DashBeforeDigits(q, d2);
    if |d1| != |d2| {
      assert false;
    }
    assert d1 == s[|s| - |d1|..] == d2;
    assert p == s[..|p|] == q;
    NatToStringInjective(i + 1, j + 1);
  }

  /** In `p + "-" + d` with `d` all digits, the `-` sits just before the
      last `|d|` characters, which are all digits. */
  lemma DashBeforeDigits(p: string, d: string)
    requires forall k :: 0 <= k < |d| ==> IsDigit(d[k])
    ensures var s := p + "-" + d;
      && s[|s| - |d| - 1] == '-'
      && forall k :: |s| - |d| <= k < |s| ==> IsDigit(s[k])
  {
    var s := p + "-" + d;
    forall k | |s| - |d| <= k < |s|
      ensures IsDigit(s[k])
    {
      assert s[k] == d[k - (|s| - |d|)];
    }
  }
}

=== FILE: improve.dfy ===
/** The post-processing `improveResumeContent` applies to the parsed JSON:
    only the `description` of each experience entry is coerced to a list;
    everything else is returned as the model sent it. */
module Improve {
  import opened Wrappers
  import opened Json
  import opened Faults

  /** `Array.isArray(d) ? d : [d || '']` on the raw value. */
  function CoerceDescription(d: Option<Json>): (r: Json)
    ensures r.JArr?
    ensures d.Some? && d.value.JArr? ==> r == d.value
    ensures d.Some? && !d.value.JArr? && Truthy(d.value) ==> r == JArr([d.value])
    ensures d.None? || !Truthy(d.value) ==> r == JArr([JStr("")])
  {
    if d.Some? && d.value.JArr? then d.value else JArr([Or(d, JStr(""))])
  }

  /** The own keys `{...exp}` copies. Spreading an array or a string also
      copies index keys, which the model does not represent. */
  function SpreadFields(j: Json): map<string, Json>
  {
    if j.JObj? then j.fields else map[]
  }

  /** `{ ...exp, description: coerced }`. */
  function CoerceEntry(exp: Json): Json
  {
    JObj(SpreadFields(exp)["description" := CoerceDescription(Get(exp, "description"))])
  }

  /** An experience entry whose description is already a list. */
  predicate IsCoerced(exp: Json) {
    exp.JObj? && "description" in exp.fields && exp.fields["description"].JArr?
  }

  /** The `if (improved.experience) { ... }` step. It throws when `improved`
      is null, when a truthy `experience` is not an array, or when an entry
      is null; a missing or falsy `experience` leaves the object as it is.
      With an `experience` array present only descriptions change: every
      other key of the document and of each entry keeps its value, the
      entries keep their number and order, and every description ends up a
      list, unchanged if it already was one. Each entry gains no key other
      than `description`. */
  function ImprovePost(improved: Json): (r: Result<Json, Fault>)
    ensures r.Success? <==>
      && !improved.JNull?
      && (|| Get(improved, "experience").None?
          || !Truthy(Get(improved, "experience").value)
          || (&& Get(improved, "experience").value.JArr?
              && forall i :: 0 <= i < |Get(improved, "experience").value.items| ==>
                   !Get(improved, "experience").value.items[i].JNull?))
    ensures r.Failure? ==> r.error == TypeError
    ensures (!improved.JNull? && (Get(improved, "experience").None? || !Truthy(Get(improved, "experience").value)))
      ==> r == Success(improved)
    ensures r.Success? && Get(improved, "experience").Some? && Get(improved, "experience").value.JArr? ==>
      var before := Get(improved, "experience").value.items;
      && r.value.JObj?
      && r.value.fields.Keys == improved.fields.Keys
      && (forall k :: k in r.value.fields && k != "experience" ==> r.value.fields[k] == improved.fields[k])
      && r.value.fields["experience"].JArr?
      && |r.value.fields["experience"].items| == |before|
      && forall i :: 0 <= i < |before| ==>
           var after := r.value.fields["experience"].items[i];
           && IsCoerced(after)
           && after.fields.Keys == SpreadFields(before[i]).Keys + {"description"}
           && after.fields["description"] == CoerceDescription(Get(before[i], "description"))
           && (forall k :: k in SpreadFields(before[i]) && k != "description" ==>
                 k in after.fields && after.fields[k] == before[i].fields[k])
           && (Get(before[i], "description").Some? && Get(before[i], "description").value.JArr? ==>
                 after.fields["description"] == before[i].fields["description"])
  {
    if improved.JNull? then Failure(TypeError)
    else match Get(improved, "experience")
      case None => Success(improved)
      case Some(e) =>
        if !Truthy(e) then Success(improved)
        else if !e.JArr? then Failure(TypeError)
        else if exists i :: 0 <= i < |e.items| && e.items[i].JNull? then Failure(TypeError)
        else
          var entries := seq(|e.items|, i requires 0 <= i < |e.items| => CoerceEntry(e.items[i]));
          Success(JObj(improved.fields["experience" := JArr(entries)]))
  }

  /** Applying the step to its own output changes nothing. */
  lemma {:induction false} ImprovePostIdempotent(improved: Json)
    requires ImprovePost(improved).Success?
    ensures ImprovePost(ImprovePost(improved).value) == ImprovePost(improved)
  {
    var r := ImprovePost(improved).value;
    var e := Get(improved, "experience");
    if e.Some? && Truthy(e.value) {
      var items := r.fields["experience"].items;
      forall i | 0 <= i < |items|
        ensures CoerceEntry(items[i]) == items[i]
      {
        assert IsCoerced(items[i]);
        assert items[i].fields["description" := items[i].fields["description"]] == items[i].fields;
      }
      var again := seq(|items|, i requires 0 <= i < |items| => CoerceEntry(items[i]));
      assert again == items;
      assert r.fields["experience" := JArr(again)] == r.fields;
    }
  }
}

=== FILE: json.dfy ===
/** The values `JSON.parse` can return, with the JavaScript operations the
    post-processing applies to them: property reads, truthiness and `||`. */
module Json {
  import opened Wrappers

  /** A parsed JSON value. Numbers are kept as integers; an object maps
      each key to its last value, as `JSON.parse` does with repeated keys. */
  datatype Json =
    | JNull
    | JBool(b: bool)
    | JNum(n: int)
    | JStr(s: string)
    | JArr(items: seq<Json>)
    | JObj(fields: map<string, Json>)

  /** JavaScript truthiness of a parsed value. */
  predicate Truthy(j: Json) {
    match j
    case JNull => false
    case JBool(b) => b
    case JNum(n) => n != 0
    case JStr(s) => s != ""
    case JArr(_) => true
    case JObj(_) => true
  }

  /** The property read `j.key` on a value other than null; `None` is
      `undefined`. Arrays, strings, numbers and booleans carry none of the
      keys the application reads. */
  function Get(j: Json, key: string): Option<Json>
  {
    if j.JObj? && key in j.fields then Some(j.fields[key]) else None
  }

  /** `a || b` where `a` may be undefined. */
  function Or(a: Option<Json>, b: Json): Json
  {
    if a.Some? && Truthy(a.value) then a.value else b
  }

  /** The string a field holds after `value || ''`. A string field cannot
      hold a truthy value of another type; the model reads one as "". */
  function StringOr(a: Option<Json>): string
  {
    match Or(a, JStr(""))
    case JStr(s) => s
    case _ => ""
  }

  /** A list element read where the application expects a string. */
  function AsString(j: Json): string
  {
    if j.JStr? then j.s else ""
  }

  /** `value || ''` keeps a string exactly, and maps a missing or falsy
      value to "". */
  lemma StringOrCases(a: Option<Json>)
    ensures a.Some? && a.value.JStr? ==> StringOr(a) == a.value.s
    ensures a.None? || !Truthy(a.value) ==> StringOr(a) == ""
  {
  }
}

=== FILE: normalize.dfy ===
/** The post-processing `parseResumeText` applies to the parsed JSON: every
    list defaulted and mapped in order, every entry given a fresh id,
    scalar fields defaulted with `|| ''`, bullets coerced to a list and
    skill years defaulted to 0. */
module Normalize {
  import opened Wrappers
  import opened Json
  import opened Types
  import opened Sections
  import opened Ids
  import opened Faults

  /** `parsed[key] || []`, about to be mapped: a missing or falsy value is the
      empty list, an array gives its elements, and any other truthy value
      has no `.map` method, so the call throws. */
  function ListField(parsed: Json, key: string): Result<seq<Json>, Fault>
  {
    match Get(parsed, key)
    case None => Success([])
    case Some(v) =>
      if !Truthy(v) then Success([])
      else if v.JArr? then Success(v.items)
      else Failure(TypeError)
  }

  /** The elements the parse path maps over for `key`. */
  function Items(parsed: Json, key: string): seq<Json>
  {
    match Get(parsed, key)
    case Some(JArr(items)) => items
    case _ => []
  }

  /** A null element makes the mapping callback's first property read throw. */
  predicate HasNull(items: seq<Json>) {
    exists i :: 0 <= i < |items| && items[i].JNull?
  }

  /** The list under `key` can be mapped without throwing. */
  predicate ListOk(parsed: Json, key: string) {
    ListField(parsed, key).Success? && !HasNull(ListField(parsed, key).value)
  }

  /** Every one of the six lists can be mapped without throwing. */
  predicate AllListsOk(parsed: Json) {
    && ListOk(parsed, ListKey(ExperienceList))
    && ListOk(parsed, ListKey(EducationList))
    && ListOk(parsed, ListKey(CertificationList))
    && ListOk(parsed, ListKey(SkillList))
    && ListOk(parsed, ListKey(ProjectList))
    && ListOk(parsed, ListKey(KeyArchitecturalProjectList))
  }

  /** `(parsed[key] || []).map(entry)`. */
  function MapEntries<T>(parsed: Json, key: string, entry: (Json, nat) -> T): (r: Result<seq<T>, Fault>)
    ensures r.Success? <==> ListOk(parsed, key)
    ensures r.Success? ==> |r.value| == |Items(parsed, key)|
    ensures r.Success? ==> forall i :: 0 <= i < |r.value| ==> r.value[i] == entry(Items(parsed, key)[i], i)
  {
    var items :- ListField(parsed, key);
    if HasNull(items) then Failure(TypeError)
    else Success(seq(|items|, i requires 0 <= i < |items| => entry(items[i], i)))
  }

  /** `Array.isArray(d) ? d : [d || '']` read as a list of bullets. */
  function Description(d: Option<Json>): (r: seq<string>)
    ensures d.Some? && d.value.JArr? ==>
      |r| == |d.value.items| && forall i :: 0 <= i < |r| && d.value.items[i].JStr? ==> r[i] == d.value.items[i].s
    ensures d.Some? && d.value.JStr? ==> r == [d.value.s]
    ensures d.None? || !Truthy(d.value) ==> r == [""]
  {
    if d.Some? && d.value.JArr? then
      seq(|d.value.items|, i requires 0 <= i < |d.value.items| => AsString(d.value.items[i]))
    else [StringOr(d)]
  }

  /** `typeof years === 'number' ? years : 0`. */
  function Years(y: Option<Json>): (r: int)
    ensures y.Some? && y.value.JNum? ==> r == y.value.n
    ensures y.None? || !y.value.JNum? ==> r == 0
  {
    match y
    case Some(JNum(n)) => n
    case _ => 0
  }

  /** `v` is what the field `key` of `j` reads as after `|| ''`: the string
      it holds, or "" when it is missing or falsy. */
  predicate ReadsString(j: Json, key: string, v: string) {
    && (Get(j, key).Some? && Get(j, key).value.JStr? ==> v == Get(j, key).value.s)
    && (Get(j, key).None? || !Truthy(Get(j, key).value) ==> v == "")
  }

  /** `x` is the job the parse path builds from element `index` of the
      parsed `experience` list. */
  predicate ExperienceFrom(x: Experience, j: Json, index: nat) {
    && x.id == GenerateId(ExperiencePrefix, index)
    && ReadsString(j, "jobTitle", x.jobTitle)
    && ReadsString(j, "company", x.company)
    && ReadsString(j, "location", x.location)
    && ReadsString(j, "startDate", x.startDate)
    && ReadsString(j, "endDate", x.endDate)
    && x.description == Description(Get(j, "description"))
    && x.keyTech.Some? && ReadsString(j, "keyTech", x.keyTech.value)
  }

  predicate EducationFrom(x: Education, j: Json, index: nat) {
    && x.id == GenerateId(EducationPrefix, index)
    && ReadsString(j, "degree", x.degree)
    && ReadsString(j, "institution", x.institution)
    && ReadsString(j, "location", x.location)
    && ReadsString(j, "gradDate", x.gradDate)
  }

  predicate CertificationFrom(x: Certification, j: Json, index: nat) {
    x.id == GenerateId(CertificationPrefix, index) && ReadsString(j, "name", x.name)
  }

  predicate SkillFrom(x: Skill, j: Json, index: nat) {
    && x.id == GenerateId(SkillPrefix, index)
    && ReadsString(j, "name", x.name)
    && x.years == Years(Get(j, "years"))
  }

  predicate ProjectFrom(x: Project, prefix: string, j: Json, index: nat) {
    && x.id == GenerateId(prefix, index)
    && ReadsString(j, "name", x.name)
    && ReadsString(j, "description", x.description)
    && ReadsString(j, "link", x.link)
  }

  /** The job built from one parsed element: a fresh id from its position,
      every text field defaulted to "", the bullets coerced to a list, and
      `keyTech` always present. */
  function ExperienceAt(j: Json, index: nat): (r: Experience)
    ensures ExperienceFrom(r, j, index)
  {
    Experience(
      GenerateId(ExperiencePrefix, index),
      StringOr(Get(j, "jobTitle")),
      StringOr(Get(j, "company")),
      StringOr(Get(j, "location")),
      StringOr(Get(j, "startDate")),
      StringOr(Get(j, "endDate")),
      Description(Get(j, "description")),
      Some(StringOr(Get(j, "keyTech"))))
  }

  function EducationAt(j: Json, index: nat): (r: Education)
    ensures EducationFrom(r, j, index)
  {
    Education(
      GenerateId(EducationPrefix, index),
      StringOr(Get(j, "degree")),
      StringOr(Get(j, "institution")),
      StringOr(Get(j, "location")),
      StringOr(Get(j, "gradDate")))
  }

  function CertificationAt(j: Json, index: nat): (r: Certification)
    ensures CertificationFrom(r, j, index)
  {
    Certification(GenerateId(CertificationPrefix, index), StringOr(Get(j, "name")))
  }

  function SkillAt(j: Json, index: nat): (r: Skill)
    ensures SkillFrom(r, j, index)
  {
    Skill(GenerateId(SkillPrefix, index), StringOr(Get(j, "name")), Years(Get(j, "years")))
  }

  function ProjectAt(prefix: string, j: Json, index: nat): (r: Project)
    ensures ProjectFrom(r, prefix, j, index)
  {
    Project(
      GenerateId(prefix, index),
      StringOr(Get(j, "name")),
      StringOr(Get(j, "description")),
      StringOr(Get(j, "link")))
  }

  /** `parsed.personalInfo || { six empty strings }`: a present object is
      taken as it is, field by field, without defaulting its fields. */
  function PersonalInfoOf(parsed: Json): (r: PersonalInfo)
    ensures var pi := Get(parsed, "personalInfo");
      pi.None? || !Truthy(pi.value) ==> r == EmptyPersonalInfo
    ensures var pi := Get(parsed, "personalInfo");
      pi.Some? && pi.value.JObj? ==>
        && (Get(pi.value, "name").Some? && Get(pi.value, "name").value.JStr? ==> r.name == Get(pi.value, "name").value.s)
        && (Get(pi.value, "email").Some? && Get(pi.value, "email").value.JStr? ==> r.email == Get(pi.value, "email").value.s)
        && (Get(pi.value, "phone").Some? && Get(pi.value, "phone").value.JStr? ==> r.phone == Get(pi.value, "phone").value.s)
        && (Get(pi.value, "website").Some? && Get(pi.value, "website").value.JStr? ==> r.website == Get(pi.value, "website").value.s)
        && (Get(pi.value, "location").Some? && Get(pi.value, "location").value.JStr? ==> r.location == Get(pi.value, "location").value.s)
        && (Get(pi.value, "summary").Some? && Get(pi.value, "summary").value.JStr? ==> r.summary == Get(pi.value, "summary").value.s)
  {
    var pi := Get(parsed, "personalInfo");
    if pi.Some? && Truthy(pi.value) then
      var p := pi.value;
      PersonalInfo(
        AsString(GetOrNull(p, "name")),
        AsString(GetOrNull(p, "email")),
        AsString(GetOrNull(p, "phone")),
        AsString(GetOrNull(p, "website")),
        AsString(GetOrNull(p, "location")),
        AsString(GetOrNull(p, "summary")))
    else EmptyPersonalInfo
  }

  /** A field of a present object, as the consumers read it: an absent
      field behaves like "" everywhere the application uses it. */
  function GetOrNull(j: Json, key: string): Json
  {
    Get(j, key).GetOr(JNull)
  }

  /** The whole normalisation step of the parse path. It throws exactly when
      `parsed` is null, a list is truthy but not an array, or a list holds a
      null entry; otherwise it keeps every list's length and order and
      numbers the entries `prefix-1`, `prefix-2`, ... in document order. */
  function Normalize(parsed: Json): (r: Result<ResumeData, Fault>)
    ensures r.Success? <==> !parsed.JNull? && AllListsOk(parsed)
    ensures r.Failure? ==> r.error == TypeError
  {
    if parsed.JNull? then Failure(TypeError)
    else
      var experience :- MapEntries(parsed, "experience", ExperienceAt);
      var education :- MapEntries(parsed, "education", EducationAt);
      var certifications :- MapEntries(parsed, "certifications", CertificationAt);
      var skills :- MapEntries(parsed, "skills", SkillAt);
      var projects :- MapEntries(parsed, "projects", (j, i) => ProjectAt(ProjectPrefix, j, i));
      var keyArch :- MapEntries(parsed, "keyArchitecturalProjects", (j, i) => ProjectAt(KeyArchitecturalProjectPrefix, j, i));
      Success(ResumeData(PersonalInfoOf(parsed), experience, education, certifications, skills, projects, keyArch))
  }

  /** Every list of a normalised document has one entry per parsed
      element, in order, each built field by field from its element. */
  lemma NormalizeLists(parsed: Json)
    requires Normalize(parsed).Success?
    ensures var d := Normalize(parsed).value;
      && d.personalInfo == PersonalInfoOf(parsed)
      && |d.experience| == |Items(parsed, "experience")|
      && (forall i :: 0 <= i < |d.experience| ==> ExperienceFrom(d.experience[i], Items(parsed, "experience")[i], i))
      && |d.education| == |Items(parsed, "education")|
      && (forall i :: 0 <= i < |d.education| ==> EducationFrom(d.education[i], Items(parsed, "education")[i], i))
      && |d.certifications| == |Items(parsed, "certifications")|
      && (forall i :: 0 <= i < |d.certifications| ==>
            CertificationFrom(d.certifications[i], Items(parsed, "certifications")[i], i))
      && |d.skills| == |Items(parsed, "skills")|
      && (forall i :: 0 <= i < |d.skills| ==> SkillFrom(d.skills[i], Items(parsed, "skills")[i], i))
      && |d.projects| == |Items(parsed, "projects")|
      && (forall i :: 0 <= i < |d.projects| ==>
            ProjectFrom(d.projects[i], ProjectPrefix, Items(parsed, "projects")[i], i))
      && |d.keyArchitecturalProjects| == |Items(parsed, "keyArchitecturalProjects")|
      && (forall i :: 0 <= i < |d.keyArchitecturalProjects| ==>
            ProjectFrom(d.keyArchitecturalProjects[i], KeyArchitecturalProjectPrefix,
                        Items(parsed, "keyArchitecturalProjects")[i], i))
  {
  }

  /** Normalisation keeps the length and order of every list and numbers
      its entries `prefix-1`, `prefix-2`, ... in document order. */
  lemma NormalizeNumbersEntries(parsed: Json, s: ListSection)
    requires Normalize(parsed).Success?
    ensures |IdsOf(Normalize(parsed).value, s)| == |Items(parsed, ListKey(s))|
    ensures forall i :: 0 <= i < |IdsOf(Normalize(parsed).value, s)| ==>
      IdsOf(Normalize(parsed).value, s)[i] == GenerateId(PrefixOf(s), i)
  {
    NormalizeLists(parsed);
  }

  /** No two entries of a normalised document share an id, whether they
      sit in the same list or in two different lists. */
  lemma NormalizedIdsDistinct(parsed: Json, s1: ListSection, i: nat, s2: ListSection, j: nat)
    requires Normalize(parsed).Success?
    requires i < |IdsOf(Normalize(parsed).value, s1)| && j < |IdsOf(Normalize(parsed).value, s2)|
    requires s1 != s2 || i != j
    ensures IdsOf(Normalize(parsed).value, s1)[i] != IdsOf(Normalize(parsed).value, s2)[j]
  {
    NormalizeNumbersEntries(parsed, s1);
    NormalizeNumbersEntries(parsed, s2);
    if GenerateId(PrefixOf(s1), i) == GenerateId(PrefixOf(s2), j) {
      GenerateIdInjective(PrefixOf(s1), i, PrefixOf(s2), j);
      PrefixOfInjective(s1, s2);
    }
  }
}

=== FILE: parseint.dfy ===
/** `parseInt(value) || 0` as the editing form applies it to the years
    field: ECMAScript's `parseInt` with no radix (leading whitespace, an
    optional sign, a `0x` prefix selecting base 16, then the longest run of
    digits), with `NaN` and zero both giving 0. */
module ParseInt {
  import opened Wrappers
  import opened Text

  /** `s` without its leading whitespace. */
  function SkipWhitespace(s: string): (r: string)
    ensures |r| <= |s| && r == s[|s| - |r|..]
    ensures |r| == 0 || !IsWhitespace(r[0])
    ensures forall k :: 0 <= k < |s| - |r| ==> IsWhitespace(s[k])
  {
    if |s| > 0 && IsWhitespace(s[0]) then SkipWhitespace(s[1..]) else s
  }

  predicate IsRadixDigit(c: char, radix: nat) {
    IsDigit(c) || (radix == 16 && ('a' <= c <= 'f' || 'A' <= c <= 'F'))
  }

  function RadixDigitValue(c: char, radix: nat): nat
    requires IsRadixDigit(c, radix)
  {
    if IsDigit(c) then DigitValue(c)
    else if 'a' <= c <= 'f' then c as int - 'a' as int + 10
    else c as int - 'A' as int + 10
  }

  /** Length of the longest prefix of `s` made of digits of `radix`. */
  function DigitRun(s: string, radix: nat): (n: nat)
    ensures n <= |s|
    ensures forall k :: 0 <= k < n ==> IsRadixDigit(s[k], radix)
    ensures n < |s| ==> !IsRadixDigit(s[n], radix)
  {
    if |s| > 0 && IsRadixDigit(s[0], radix) then 1 + DigitRun(s[1..], radix) else 0
  }

  /** The number a run of digits denotes, most significant first. */
  function RadixValue(s: string, radix: nat): nat
    requires forall k :: 0 <= k < |s| ==> IsRadixDigit(s[k], radix)
  {
    if |s| == 0 then 0
    else RadixValue(s[..|s| - 1], radix) * radix + RadixDigitValue(s[|s| - 1], radix)
  }

  /** The unsigned part of `parseInt`: an optional `0x` prefix selects
      radix 16, then the longest run of digits; `None` is `NaN`. */
  function ParseMagnitude(u: string): (r: Option<nat>)
    ensures r.Some? ==> |u| > 0 && IsDigit(u[0])
    ensures |u| > 0 && IsDigit(u[0]) && !(|u| >= 2 && u[0] == '0' && (u[1] == 'x' || u[1] == 'X'))
      ==> r.Some?
  {
    var hex := |u| >= 2 && u[0] == '0' && (u[1] == 'x' || u[1] == 'X');
    var radix: nat := if hex then 16 else 10;
    var v := if hex then u[2..] else u;
    var n := DigitRun(v, radix);
    if n == 0 then None else Some(RadixValue(v[..n], radix))
  }

  /** `parseInt(s)`; `None` is `NaN`. */
  function ParseIntNaN(s: string): (r: Option<int>)
    ensures r.Some? ==>
      var t := SkipWhitespace(s);
      |t| > 0 && (IsDigit(t[0]) || t[0] == '-' || t[0] == '+')
    ensures r.Some? && r.value < 0 ==> SkipWhitespace(s)[0] == '-'
    ensures r.Some? && r.value > 0 ==> SkipWhitespace(s)[0] != '-'
  {
    var t := SkipWhitespace(s);
    var negative := |t| > 0 && t[0] == '-';
    var u := if |t| > 0 && (t[0] == '-' || t[0] == '+') then t[1..] else t;
    match ParseMagnitude(u)
    case None => None
    case Some(m) => Some(if negative then -(m as int) else m)
  }

  /** `parseInt(s) || 0`: a nonzero result needs a digit or a sign where
      the number starts, and its sign follows the leading `-`. */
  function ParseIntOrZero(s: string): (r: int)
    ensures r != 0 ==>
      var t := SkipWhitespace(s);
      |t| > 0 && (IsDigit(t[0]) || t[0] == '-' || t[0] == '+')
    ensures r < 0 ==> SkipWhitespace(s)[0] == '-'
    ensures r > 0 ==> SkipWhitespace(s)[0] != '-'
  {
    match ParseIntNaN(s)
    case None => 0
    case Some(v) => v
  }

  /** Decimal digits read in base 10 give their ordinary value. */
  lemma {:induction false} RadixValueDecimal(s: string)
    requires forall k :: 0 <= k < |s| ==> IsDigit(s[k])
    ensures RadixValue(s, 10) == DigitsValue(s)
  {
    if |s| > 0 {
      RadixValueDecimal(s[..|s| - 1]);
    }
  }

  /** The numeral of `n` is read back as `n`. */
  lemma MagnitudeOfNumeral(n: nat)
    ensures ParseMagnitude(NatToString(n)) == Some(n)
  {
    NumeralFacts(n);
  }

  /** The form reads back the number it displays: the numeral of `n`
      parses to `n`. */
  lemma ParseIntOrZeroRoundTrip(n: nat)
    ensures ParseIntOrZero(NatToString(n)) == n
  {
    var s := NatToString(n);
    NumeralFacts(n);
    MagnitudeOfNumeral(n);
    assert SkipWhitespace(s) == s;
  }

  /** A minus sign negates what follows it. */
  lemma ParseNegated(u: string)
    requires ParseMagnitude(u).Some?
    ensures ParseIntNaN("-" + u) == Some(-(ParseMagnitude(u).value as int))
  {
    var t := "-" + u;
    assert !IsWhitespace(t[0]);
    assert SkipWhitespace(t) == t;
    assert t[1..] == u;
  }

  /** With a minus sign in front, the numeral of `n` parses to `-n`. */
  lemma ParseIntOrZeroNegativeRoundTrip(n: nat)
    ensures ParseIntOrZero("-" + NatToString(n)) == -(n as int)
  {
    MagnitudeOfNumeral(n);
    ParseNegated(NatToString(n));
  }

  /** The numeral of `n` is one decimal run worth `n`, with no `0x` prefix. */
  lemma NumeralFacts(n: nat)
    ensures var s := NatToString(n);
      && DigitRun(s, 10) == |s|
      && RadixValue(s[..|s|], 10) == n
      && !IsWhitespace(s[0]) && s[0] != '-' && s[0] != '+'
      && (|s| >= 2 ==> s[1] != 'x' && s[1] != 'X')
  {
    var s := NatToString(n);
    DigitRunAll(s, 10);
    assert s[..|s|] == s;
    RadixValueDecimal(s);
    DigitsValueOfNatToString(n);
  }

  /** A string made only of digits is one run. */
  lemma {:induction false} DigitRunAll(s: string, radix: nat)
    requires forall k :: 0 <= k < |s| ==> IsRadixDigit(s[k], radix)
    ensures DigitRun(s, radix) == |s|
  {
    if |s| > 0 {
      DigitRunAll(s[1..], radix);
    }
  }

  /** Input with no digit where the number should start reads as 0. */
  lemma ParseIntOrZeroNoDigits(s: string)
    requires var t := SkipWhitespace(s); |t| == 0 || !(IsDigit(t[0]) || t[0] == '-' || t[0] == '+')
    ensures ParseIntOrZero(s) == 0
  {
  }
}

=== FILE: service.dfy ===
/** `services/geminiService.ts`: the choice of model provider from the
    build-time environment, the request sent to it, and the three service
    operations with their error wrapping. The SDK call and `JSON.parse` are
    parameters: the model never sees the network or the JSON grammar. */
module Service {
  import opened Wrappers
  import opened Json
  import opened Types
  import opened Faults
  import Braces
  import Normalize
  import Improve

  datatype Provider = Gemini | OpenAI

  /** The provider as it appears in error messages. */
  function ProviderName(p: Provider): string {
    match p
    case Gemini => "gemini"
    case OpenAI => "openai"
  }

  /** The build-time environment `import.meta.env`; a missing key is
      `undefined`. */
  type Env = map<string, string>

  /** `env[key] || fallback`. */
  function EnvOr(env: Env, key: string, fallback: string): string {
    if key in env && env[key] != "" then env[key] else fallback
  }

  const GeminiKeyVar := "VITE_GEMINI_API_KEY"
  const LegacyKeyVar := "VITE_API_KEY"
  const OpenAiKeyVar := "VITE_OPENAI_API_KEY"
  const GeminiModelVar := "VITE_GEMINI_MODEL"
  const DefaultGeminiModel := "gemini-2.5-pro"
  const OpenAiModel := "gpt-4o"
  const NoApiKeyMessage :=
    "No API key found. Please set VITE_OPENAI_API_KEY or VITE_GEMINI_API_KEY in your .env file."

  /** The Gemini key, falling back to the older variable name. */
  function GeminiApiKey(env: Env): string {
    EnvOr(env, GeminiKeyVar, EnvOr(env, LegacyKeyVar, ""))
  }

  function OpenAiApiKey(env: Env): string {
    EnvOr(env, OpenAiKeyVar, "")
  }

  function GeminiModel(env: Env): string {
    EnvOr(env, GeminiModelVar, DefaultGeminiModel)
  }

  /** A variable that is set to a non-empty string. */
  predicate IsSet(env: Env, key: string) {
    key in env && env[key] != ""
  }

  /** `getProvider`: OpenAI whenever its key is set, otherwise Gemini when
      either Gemini variable is set, otherwise the missing-key error. */
  function GetProvider(env: Env): (r: Result<Provider, string>)
    ensures r == Success(OpenAI) <==> IsSet(env, OpenAiKeyVar)
    ensures r == Success(Gemini) <==>
      !IsSet(env, OpenAiKeyVar) && (IsSet(env, GeminiKeyVar) || IsSet(env, LegacyKeyVar))
    ensures r.Failure? ==> r.error == NoApiKeyMessage
  {
    if OpenAiApiKey(env) != "" then Success(OpenAI)
    else if GeminiApiKey(env) != "" then Success(Gemini)
    else Failure(NoApiKeyMessage)
  }

  /** What the prompt asks of the model; the prompt wording itself is
      configuration and is not modelled. */
  datatype Task =
    | ParseTask(text: string)
    | ImproveTask(data: ResumeData, improvements: string)
    | StyleTask(preferences: string)

  /** One SDK request. OpenAI requests carry a temperature, in tenths;
      Gemini requests carry none. Both ask for a JSON response. */
  datatype Request = Request(provider: Provider, model: string, temperatureTenths: Option<nat>, task: Task)

  /** The SDK call: the response text, or the message of what it threw.
      An OpenAI reply without content arrives as "". */
  type Sdk = Request -> Result<string, string>

  /** `JSON.parse`: the value, or the message of the syntax error. */
  type JsonParser = string -> Result<Json, string>

  const ParseTemperature: nat := 3
  const ImproveTemperature: nat := 7
  const StyleTemperature: nat := 5

  /** The key that creates `provider`'s client; "" means no client. */
  function ClientKey(env: Env, provider: Provider): string {
    match provider
    case OpenAI => OpenAiApiKey(env)
    case Gemini => GeminiApiKey(env)
  }

  /** The request sent to `provider`: OpenAI gets the fixed model and the
      temperature, Gemini the configured model and no temperature. */
  function RequestFor(env: Env, provider: Provider, temperature: nat, task: Task): (req: Request)
    ensures req.provider == provider && req.task == task
    ensures req.temperatureTenths.Some? <==> provider == OpenAI
    ensures req.temperatureTenths.Some? ==> req.temperatureTenths.value == temperature
    ensures provider == OpenAI ==> req.model == "gpt-4o"
    ensures provider == Gemini ==> req.model == EnvOr(env, "VITE_GEMINI_MODEL", "gemini-2.5-pro")
  {
    match provider
    case OpenAI => Request(OpenAI, OpenAiModel, Some(temperature), task)
    case Gemini => Request(Gemini, GeminiModel(env), None, task)
  }

  /** The SDK call through `provider`'s client, or `NoClient` when the
      client was never created because its key is empty. What the SDK
      throws becomes `SdkError` with its message. */
  function Dispatch(env: Env, provider: Provider, temperature: nat, task: Task, sdk: Sdk): (r: Result<string, Fault>)
    ensures r == Failure(NoClient) <==> ClientKey(env, provider) == ""
    ensures ClientKey(env, provider) != "" ==>
      var reply := sdk(RequestFor(env, provider, temperature, task));
      && (r.Success? <==> reply.Success?)
      && (r.Success? ==> r.value == reply.value)
      && (r.Failure? ==> r.error == SdkError(reply.error))
  {
    if ClientKey(env, provider) == "" then Failure(NoClient)
    else sdk(RequestFor(env, provider, temperature, task)).MapFailure(m => SdkError(m))
  }

  /** The provider `getProvider` chose always has a client, so the
      `No AI client available` branch cannot be taken. */
  lemma DispatchHasClient(env: Env, temperature: nat, task: Task, sdk: Sdk)
    requires GetProvider(env).Success?
    ensures Dispatch(env, GetProvider(env).value, temperature, task, sdk) != Failure(NoClient)
  {
  }

  /** The body of each `try`: call the model, cut out the brace span, parse
      it. */
  function CallForJson(env: Env, provider: Provider, temperature: nat, task: Task, sdk: Sdk, parse: JsonParser)
    : (r: Result<Json, Fault>)
    ensures var reply := Dispatch(env, provider, temperature, task, sdk);
      && (reply.Failure? ==> r == Failure(reply.error))
      && (reply.Success? && Braces.ExtractJson(reply.value).Failure? ==> r == Failure(NoJson))
      && (reply.Success? && Braces.ExtractJson(reply.value).Success? ==>
            var parsed := parse(Braces.ExtractJson(reply.value).value);
            && (r.Success? <==> parsed.Success?)
            && (r.Success? ==> r.value == parsed.value)
            && (r.Failure? ==> r.error == ParseError(parsed.error)))
  {
    var text :- Dispatch(env, provider, temperature, task, sdk);
    var span :- Braces.ExtractJson(text).MapFailure(_ => NoJson);
    parse(span).MapFailure(m => ParseError(m))
  }

  function ParseFailureMessage(p: Provider): string {
    "Failed to parse resume with " + ProviderName(p) + ". Please check your API key configuration."
  }

  function ImproveFailureMessage(p: Provider): string {
    "Failed to improve resume with " + ProviderName(p) + ". Please try again."
  }

  function StyleFailureMessage(p: Provider): string {
    "Failed to generate styles with " + ProviderName(p) + "."
  }

  /** `parseResumeText`. A missing key fails before the `try` with its own
      message; every failure inside it becomes the one message naming the
      provider. */
  function ParseResumeText(env: Env, text: string, sdk: Sdk, parse: JsonParser): (r: Result<ResumeData, string>)
    ensures GetProvider(env).Failure? ==> r == Failure(NoApiKeyMessage)
    ensures GetProvider(env).Success? && r.Failure? ==> r.error == ParseFailureMessage(GetProvider(env).value)
    ensures GetProvider(env).Success? ==>
      var j := CallForJson(env, GetProvider(env).value, ParseTemperature, ParseTask(text), sdk, parse);
      && (r.Success? <==> j.Success? && Normalize.Normalize(j.value).Success?)
      && (r.Success? ==> Normalize.Normalize(j.value) == Success(r.value))
  {
    var provider :- GetProvider(env);
    var attempt := (
      var parsed :- CallForJson(env, provider, ParseTemperature, ParseTask(text), sdk, parse);
      Normalize.Normalize(parsed));
    attempt.MapFailure(_ => ParseFailureMessage(provider))
  }

  /** `improveResumeContent`: the parsed object after description coercion,
      returned without any check against the document it was asked to
      improve. */
  function ImproveResumeContent(env: Env, data: ResumeData, improvements: string, sdk: Sdk, parse: JsonParser)
    : (r: Result<Json, string>)
    ensures GetProvider(env).Failure? ==> r == Failure(NoApiKeyMessage)
    ensures GetProvider(env).Success? && r.Failure? ==> r.error == ImproveFailureMessage(GetProvider(env).value)
    ensures GetProvider(env).Success? ==>
      var j := CallForJson(env, GetProvider(env).value, ImproveTemperature, ImproveTask(data, improvements), sdk, parse);
      && (r.Success? <==> j.Success? && Improve.ImprovePost(j.value).Success?)
      && (r.Success? ==> Improve.ImprovePost(j.value) == Success(r.value))
  {
    var provider :- GetProvider(env);
    var attempt := (
      var improved :- CallForJson(env, provider, ImproveTemperature, ImproveTask(data, improvements), sdk, parse);
      Improve.ImprovePost(improved));
    attempt.MapFailure(_ => ImproveFailureMessage(provider))
  }

  /** `generateStyles`: the parsed object itself. No current style object
      is an input, so nothing is merged into the result. */
  function GenerateStyles(env: Env, preferences: string, sdk: Sdk, parse: JsonParser): (r: Result<Json, string>)
    ensures GetProvider(env).Failure? ==> r == Failure(NoApiKeyMessage)
    ensures GetProvider(env).Success? && r.Failure? ==> r.error == StyleFailureMessage(GetProvider(env).value)
    ensures GetProvider(env).Success? ==>
      var j := CallForJson(env, GetProvider(env).value, StyleTemperature, StyleTask(preferences), sdk, parse);
      && (r.Success? <==> j.Success?)
      && (r.Success? ==> r.value == j.value)
  {
    var provider :- GetProvider(env);
    CallForJson(env, provider, StyleTemperature, StyleTask(preferences), sdk, parse)
      .MapFailure(_ => StyleFailureMessage(provider))
  }
}

=== FILE: text.dfy ===
/** String helpers shared by the model: JavaScript whitespace and `trim`
    blankness, `Array.prototype.join`, and the decimal rendering of a
    natural number that template literals such as `${n}` produce. */
module Text {

  /** The code points `String.prototype.trim` removes, restricted to the
      ASCII and Latin-1 ones plus the byte-order mark. */
  predicate IsWhitespace(c: char) {
    c == ' ' || c == '\t' || c == '\n' || c == '\r'
    || c == '\U{000B}' || c == '\U{000C}' || c == '\U{00A0}' || c == '\U{FEFF}'
  }

  /** `!s.trim()`: the string is empty once surrounding whitespace is removed. */
  predicate IsBlank(s: string) {
    forall i :: 0 <= i < |s| ==> IsWhitespace(s[i])
  }

  predicate IsDigit(c: char) {
    '0' <= c <= '9'
  }

  function DigitChar(d: nat): (c: char)
    requires d < 10
    ensures IsDigit(c) && c as int - '0' as int == d
  {
    ('0' as int + d) as char
  }

  function DigitValue(c: char): nat
    requires IsDigit(c)
  {
    c as int - '0' as int
  }

  /** The decimal numeral of `n` without leading zeros, as `String(n)` gives it. */
  function NatToString(n: nat): (s: string)
    ensures 1 <= |s|
    ensures forall i :: 0 <= i < |s| ==> IsDigit(s[i])
    ensures n < 10 <==> |s| == 1
    ensures s[0] == '0' ==> n == 0
    decreases n
  {
    if n < 10 then [DigitChar(n)] else NatToString(n / 10) + [DigitChar(n % 10)]
  }

  /** The value of a non-empty run of decimal digits, read most significant first. */
  function DigitsValue(s: string): nat
    requires forall i :: 0 <= i < |s| ==> IsDigit(s[i])
  {
    if |s| == 0 then 0 else DigitsValue(s[..|s| - 1]) * 10 + DigitValue(s[|s| - 1])
  }

  /** Reading back the numeral of `n` gives `n`. */
  lemma {:induction false} DigitsValueOfNatToString(n: nat)
    ensures DigitsValue(NatToString(n)) == n
    decreases n
  {
    var s := NatToString(n);
    if n >= 10 {
      assert s[..|s| - 1] == NatToString(n / 10);
      DigitsValueOfNatToString(n / 10);
    }
  }

  /** Distinct numbers have distinct numerals. */
  lemma NatToStringInjective(n: nat, m: nat)
    requires NatToString(n) == NatToString(m)
    ensures n == m
  {
    DigitsValueOfNatToString(n);
    DigitsValueOfNatToString(m);
  }

  /** `parts.join(sep)`. */
  function Join(parts: seq<string>, sep: string): string
  {
    if |parts| == 0 then ""
    else if |parts| == 1 then parts[0]
    else parts[0] + sep + Join(parts[1..], sep)
  }

  /** `s.startsWith(prefix)`. */
  predicate StartsWith(s: string, prefix: string) {
    |prefix| <= |s| && s[..|prefix|] == prefix
  }
}

=== FILE: types.dfy ===
/** The resume document and presentation types of `types.ts`. */
module Types {
  import opened Wrappers

  /** Contact block; every field is a plain string, "" meaning unknown. */
  datatype PersonalInfo = PersonalInfo(
    name: string,
    email: string,
    phone: string,
    website: string,
    location: string,
    summary: string)

  /** One job. `description` holds the bullets in order; `keyTech` is the
      only optional field of any entity. */
  datatype Experience = Experience(
    id: string,
    jobTitle: string,
    company: string,
    location: string,
    startDate: string,
    endDate: string,
    description: seq<string>,
    keyTech: Option<string>)

  datatype Education = Education(
    id: string,
    degree: string,
    institution: string,
    location: string,
    gradDate: string)

  datatype Certification = Certification(id: string, name: string)

  /** Shared by the `projects` and `keyArchitecturalProjects` lists. */
  datatype Project = Project(id: string, name: string, description: string, link: string)

  /** `years` is a JavaScript number; the model keeps integers only. */
  datatype Skill = Skill(id: string, name: string, years: int)

  /** The root document: contact block plus six separate lists. */
  datatype ResumeData = ResumeData(
    personalInfo: PersonalInfo,
    experience: seq<Experience>,
    education: seq<Education>,
    certifications: seq<Certification>,
    skills: seq<Skill>,
    projects: seq<Project>,
    keyArchitecturalProjects: seq<Project>)

  /** The fifteen named regions of the rendered resume that can carry
      extra style classes. */
  datatype StyleSlot =
    | Container | Header | Name | ContactInfo | Summary | Section | SectionTitle
    | ItemHeader | ItemTitle | ItemSubtitle | ItemDate | ItemList | ListItem
    | SkillsList | SkillItem

  /** Every slot is optional: a slot missing from the map has no override. */
  type CustomStyles = map<StyleSlot, string>

  datatype Template = Classic | Modern | Professional

  const EmptyPersonalInfo := PersonalInfo("", "", "", "", "", "")
}

/** The six list-valued keys of `ResumeData`, which the editing form and the
    parse path address by name. */
module Sections {
  import opened Types

  datatype ListSection =
    | ExperienceList | EducationList | CertificationList
    | SkillList | ProjectList | KeyArchitecturalProjectList

  /** The property name of the list in `ResumeData` and in the model's JSON. */
  function ListKey(s: ListSection): string {
    match s
    case ExperienceList => "experience"
    case EducationList => "education"
    case CertificationList => "certifications"
    case SkillList => "skills"
    case ProjectList => "projects"
    case KeyArchitecturalProjectList => "keyArchitecturalProjects"
  }

  /** The ids of the entries of one list, in order. */
  function IdsOf(d: ResumeData, s: ListSection): seq<string> {
    match s
    case ExperienceList => seq(|d.experience|, i requires 0 <= i < |d.experience| => d.experience[i].id)
    case EducationList => seq(|d.education|, i requires 0 <= i < |d.education| => d.education[i].id)
    case CertificationList => seq(|d.certifications|, i requires 0 <= i < |d.certifications| => d.certifications[i].id)
    case SkillList => seq(|d.skills|, i requires 0 <= i < |d.skills| => d.skills[i].id)
    case ProjectList => seq(|d.projects|, i requires 0 <= i < |d.projects| => d.projects[i].id)
    case KeyArchitecturalProjectList =>
      seq(|d.keyArchitecturalProjects|, i requires 0 <= i < |d.keyArchitecturalProjects| => d.keyArchitecturalProjects[i].id)
  }
}

=== FILE: wrappers.dfy ===
/** Option and Result datatypes for values that may be missing and
    operations that may fail; `Result` works with the `:-` failure
    operator. */
module Wrappers {

  /** A value that may be absent; `None` plays JavaScript's `undefined`. */
  datatype Option<+T> = None | Some(value: T) {

    /** The carried value, or `default` when there is none. */
    function GetOr(default: T): T {
      match this
      case Some(v) => v
      case None => default
    }
  }

  /** The outcome of an operation that either yields a value or throws. */
  datatype Result<+R, +E> = Success(value: R) | Failure(error: E) {

    predicate IsFailure() {
      Failure?
    }

    function PropagateFailure<U>(): Result<U, E>
      requires Failure?
    {
      Failure(error)
    }

    function Extract(): R
      requires Success?
    {
      value
    }

    /** Replaces the error of a failure, keeping a success as it is. */
    function MapFailure<E2>(wrap: E -> E2): Result<R, E2> {
      match this
      case Success(v) => Success(v)
      case Failure(e) => Failure(wrap(e))
    }

    /** Transforms the value of a success, keeping a failure as it is. */
    function MapSuccess<R2>(f: R -> R2): Result<R2, E> {
      match this
      case Success(v) => Success(f(v))
      case Failure(e) => Failure(e)
    }
  }
}
